=== FILE: README.md ===
# XmlStreamProcessor in Dafny

XmlStreamProcessor builds streaming XML readers from a declarative
description. The author writes a lambda over an `INode` (`c =>
c.NullInt("item1") ?? c.NullInt("item2") * 10`). The schema compiler
(`MarkupLambdaTraverser`) walks that expression depth-first. Each field
request becomes a read of a numbered slot, and the walk registers, per
child or attribute name, which slot and which parser serve it. At parse
time `BaseTypeParser.Parse` makes one forward pass over the reader. It
records the start node's tag name and attributes. It then hands every
direct child element that has a rule to that rule's parser. The values
are collected in a slot array (`ParserData`). A `TypeParser` keeps the
first non-null value per slot and projects once at the end. An
`ArrayParser` projects once per child, then empties the slot again.

This project models that core:

- `values.dfy`: boxed slot values, error kinds, `Result`/`Option`.
- `tokens.dfy`: the reader as a token sequence with a cursor.
  - The `Reader` class holds the cursor. Its `Read`, `ReadString` and
    `ReadOuterXml` are proved against the functions `Next`,
    `ReadStringSpec` and `ReadOuterXmlSpec`.
- `schema.dfy`: request graphs, compiled schemas, and the projector
  (`Eval`).
- `compiler.dfy`: the compiler.
  - As functions: `Rewrite` and `Compile`.
  - As the mutable `MarkupLambdaTraverser` class, whose methods are proved
    equal to those functions.
  - Lemmas about slot allocation, rule registration, well-formedness and
    failure.
- `leaves.dfy`: the leaf parsers.
  - `Int32` parsing, modelled concretely.
  - The null/empty decisions of the nullable leaves.
  - The `String` leaf's loop.
- `engine.dfy`: the traversal.
  - `LoopSpec`, `RunSpec` and `ParseSpec` are functions over tokens.
  - The imperative `Parse`/`ReadChildren` loop is proved against them.
  - It uses the `NodeHandler` and `ParserData` classes, which mutate a
    slot array in place.
- `properties.dfy`: what the traversal promises.
  - Which tokens it reads and routes, and where it stops.
  - The first-non-null rule of object mode.
  - The per-child projection of array mode.
- `examples.dfy`: the test scenarios, and two behaviours of the code worth
  knowing, stated as lemmas on concrete documents:
  - when a child written `<a/>` is routed to an object or array parser
    (`Type`/`Array`), whatever token directly follows it is consumed: that
    parser's own read loop stops on the token, and the enclosing loop's
    next read moves past it. A sibling there is skipped. When it is the
    parent's end tag, the parent's parser overruns it and stops on the
    parent's next sibling, which the grandparent's loop then misses. A
    child routed to a leaf parser or a `Custom` parser stays on `<a/>`,
    so nothing after it is lost (`Examples.EmptyLeafSiblingsKept`);
  - the `String` leaf reads into any non-empty child element that directly
    follows another child element, keeping its text but dropping its tags.

A document is given as the token sequence the reader would produce. The
conversions `Convert.ToBoolean`, `Convert.ToDecimal` and
`Convert.ToDateTime` are supplied from outside as an `Env` of partial
functions. The combinators an author writes around the node calls
(`??`, `+`, object initializers) are opaque functions on slot values.

The model follows the code in three places where a reader might expect otherwise:

- `Parser.cs` raises no error of its own for input that ends inside the
  root: its loop simply ends. A real `XmlReader` throws on such input,
  which belongs to the tokenizer (see "## Left out").
- The compiler's own failure is the "unknown wrapper" one. There is no
  schema-ambiguity error.
- An `Int` leaf reports overflow separately from bad format.

## Model

| member | source | states |
|---|---|---|
| Tokens.Reader.Read | XmlStreamProcessor/Parser.cs:141 | the cursor moves one token on (and stays at the end), and `Read` is true exactly when a token is under it |
| Tokens.Reader.ReadString | XmlStreamProcessor/Parser.cs:40 | the text and new cursor are those of `ReadStringSpec`: `""` on `<a/>` and `<a></a>`, the text run inside an element otherwise, never null; an error only when a non-empty start tag is the last token (`<a>text` followed by end of input gives `"text"`) |
| Tokens.Reader.ReadOuterXml | XmlStreamProcessor/Parser.cs:47 | returns the element's markup and moves past its whole subtree; on a non-element returns nothing and moves one step |
| Schema.GetSlot | XmlStreamProcessor/Parser.cs:493-498 | an empty slot reads as the default and a non-empty slot as its value, so a null result means a null default |
| Compiler.MarkupLambdaTraverser.constructor | XmlStreamProcessor/Parser.cs:326-328 | a new traverser has no slots and no rules |
| Compiler.MarkupLambdaTraverser.Visit | XmlStreamProcessor/Parser.cs:330-333 | visiting a graph leaves the traverser in the state `Rewrite` computes, the arguments of a combinator visited left to right, and returns the rewritten projector or the compile error |
| Compiler.MarkupLambdaTraverser.VisitMethodCall | XmlStreamProcessor/Parser.cs:360-431 | `Tag()` takes no slot; every other call takes slot ArgLength and increments it; an attribute or element rule is registered only for a new name; the element rule's parser is replaced on every call; an unknown call fails |
| Compiler.BuildSchema | XmlStreamProcessor/Parser.cs:106-111 | the schema built by a fresh traverser equals `Compile` |
| Compiler.CompileSlots | XmlStreamProcessor/Parser.cs:366-371 | the slot count is the number of field requests (Tag excluded); the projector reads slots 0, 1, 2, … in request order, all distinct |
| Compiler.CompileRuleSlots | XmlStreamProcessor/Parser.cs:375-386 | a name has an element (attribute) rule iff some element (attribute) request uses it, and its slot is the position of the first such request |
| Compiler.CompileOrphanSlots | XmlStreamProcessor/Parser.cs:370-386 | a slot is owned by a rule iff it was taken by the first request for its name; slots of repeated names belong to no rule |
| Compiler.CompileRuleParser | XmlStreamProcessor/Parser.cs:388-424 | an element rule's parser is the one of the last request for that name |
| Compiler.CompileWF | XmlStreamProcessor/Parser.cs:366-386 | a compiled schema is well formed: every slot in range, rule slots pairwise distinct, nested schemas well formed |
| Compiler.CompileFails | XmlStreamProcessor/Parser.cs:426-427 | compilation fails iff the graph contains an unknown node call with a literal name argument, and then with the "unknown wrapper" error |
| Leaves.ParseInt32 | XmlStreamProcessor/Parser.cs:26-32 | a success is a 32-bit integer; failures are format or overflow errors; empty text is a format error |
| Leaves.ParseShow | XmlStreamProcessor/Parser.cs:26-32 | parsing a printed integer gives it back within the 32-bit range and an overflow outside it |
| Leaves.ReplaceDots | XmlStreamProcessor/Parser.cs:78 | same length, no '.' left, every '.' replaced by the group separator and every other character kept |
| Leaves.Convert | XmlStreamProcessor/Parser.cs:15-91 | the result is null exactly for empty text on a nullable leaf; `Int` on empty text is a format error; integer results lie in the 32-bit range |
| Leaves.StringLoop | XmlStreamProcessor/Parser.cs:45-49 | the loop stops on a token no deeper than the start node and only appends to what was read before |
| Leaves.StringSpec | XmlStreamProcessor/Parser.cs:34-56 | the String leaf never yields null, and leaves the cursor no deeper than the start node |
| Leaves.StringOfTextElement | XmlStreamProcessor/Parser.cs:38-54 | on an element holding only text the String leaf gives that text and stops on the end tag; on `<a/>` it gives `""` and stays put |
| Leaves.TextRunContent | XmlStreamProcessor/Parser.cs:40 | the text `ReadString` collects at the front of an element's direct content is a prefix of that content, and what follows is again direct content |
| Leaves.StringLoopContent | XmlStreamProcessor/Parser.cs:45-49 | the loop of the String parser, started inside direct content, appends the rest of it (child markup and text, in document order) and stops on the end tag |
| Leaves.StringOfMixedContent | XmlStreamProcessor/Parser.cs:38-54 | an element whose content is text and child elements, no child directly followed by another element, gives the String leaf all its texts and its children's markup in document order, and stops on its end tag |
| Leaves.ParseString | XmlStreamProcessor/Parser.cs:34-56 | the imperative loop returns `StringSpec`'s value and leaves the cursor where it says |
| Leaves.ParseLeaf | XmlStreamProcessor/Parser.cs:15-91 | each leaf parser returns `LeafSpec`'s value (read the text, then convert) and leaves the cursor where it says |
| Engine.LoopSpec | XmlStreamProcessor/Parser.cs:141-167 | the loop's end lies after its first read, and every dispatched slot is in range |
| Engine.RunSpec | XmlStreamProcessor/Parser.cs:160-164 | a child's parser never moves the cursor backwards |
| Engine.ParseSpec | XmlStreamProcessor/Parser.cs:115-170 | a parse never moves the cursor backwards |
| Engine.Start | XmlStreamProcessor/Parser.cs:117-139 | the handler starts with exactly ArgLength slots |
| Engine.Handle | XmlStreamProcessor/Parser.cs:186-190 | HandleNode keeps the slot count and the tag name |
| Engine.ParserData.constructor | XmlStreamProcessor/Parser.cs:483-486 | a fresh slot array of the given length, all null, no tag name |
| Engine.NodeHandler.constructor | XmlStreamProcessor/Parser.cs:180-184 | a handler starts with ArgLength empty slots, no tag name, no items |
| Engine.NodeHandler.HandleTagName | XmlStreamProcessor/Parser.cs:192-195 | only the tag name changes |
| Engine.NodeHandler.HandleAttribute | XmlStreamProcessor/Parser.cs:202-205 | the attribute's slot is overwritten unconditionally; nothing else changes |
| Engine.NodeHandler.HandleNode | XmlStreamProcessor/Parser.cs:234-239 | array mode writes, projects, appends and empties the slot; object mode (lines 186-190) writes only an empty slot |
| Engine.NodeHandler.GetResult | XmlStreamProcessor/Parser.cs:251-257 | the copied array holds exactly the items in order (array mode), or the projection of the slots (object mode) |
| Engine.ConsumeSubtree | XmlStreamProcessor/Parser.cs:289-292 | an external parser leaves the cursor on the child's closing token |
| Engine.RunParser | XmlStreamProcessor/Parser.cs:160-162 | running a rule's parser gives `RunSpec`'s value and cursor |
| Engine.Parse | XmlStreamProcessor/Parser.cs:115-170 | the imperative parse gives `ParseSpec`'s value and cursor |
| Engine.HandleStart | XmlStreamProcessor/Parser.cs:125-139 | after the start node is handled, the handler state is `Start`: tag name and ruled attributes, only on an element |
| Engine.ReadChildren | XmlStreamProcessor/Parser.cs:141-167 | the `while (reader.Read())` loop ends where `LoopSpec` ends, with the handler folded over its steps, or fails with the child's error |
| Engine.AttributesOutsideSchema | XmlStreamProcessor/Parser.cs:129-137 | attributes without a rule leave the slots as they are |
| Properties.LoopTrace | XmlStreamProcessor/Parser.cs:141-167 | the loop's steps are exactly those of `Traced`: a child is dispatched iff it is an element one level below the root with a rule (exact name first, then `*`), gets that rule's slot and its parser's value, and the loop resumes after that parser; everything else is passed over one token at a time; the loop stops at end of input or on a token no deeper than the root |
| Properties.TraceOrdered | XmlStreamProcessor/Parser.cs:141-167 | the tokens the loop reads lie strictly between the start and the stop position, in strictly increasing order: the cursor never goes back |
| Properties.NoneStartReadsAll | XmlStreamProcessor/Parser.cs:119-123 | started with no current node, the root depth is -1: the loop reads the whole input and no tag name or attribute is recorded |
| Properties.ParseStops | XmlStreamProcessor/Parser.cs:141-144 | a parse stops at end of input or on a token no deeper than the root depth: the first one its own loop reads (a routed child's subtree is read by the child's parser, which may stop past the child, see `Examples.OverrunList`) |
| Properties.LastAttribute | XmlStreamProcessor/Parser.cs:131-137 | an attribute of a name is found iff the node has one |
| Properties.StartState | XmlStreamProcessor/Parser.cs:125-139 | before the loop: the tag name iff the start is an element, each ruled attribute slot holds the node's (last) attribute of that name, every other slot is null, no items |
| Properties.ElementSlotsStartEmpty | XmlStreamProcessor/Parser.cs:183 | every element rule's slot is empty when the loop begins |
| Properties.FirstNonNull | XmlStreamProcessor/Parser.cs:188-189 | the first non-null value is one of the values, and it is null iff all are null |
| Properties.ObjectFold | XmlStreamProcessor/Parser.cs:186-190 | in object mode a slot that holds a value keeps it; an empty one ends with the first non-null value handed to it |
| Properties.ObjectResult | XmlStreamProcessor/Parser.cs:186-200 | a TypeParser's value is the projection of slots where each element rule's slot holds the first non-null value of its children, in document order |
| Properties.DispatchesToRuleSlots | XmlStreamProcessor/Parser.cs:150-164 | the loop writes only slots owned by element rules |
| Properties.NonElementSlotsKept | XmlStreamProcessor/Parser.cs:186-205 | in object mode a slot owned by no element rule keeps its start value; if no attribute owns it either it stays null, so a repeated name's slot reads as its default |
| Properties.RuleSlotRead | XmlStreamProcessor/Parser.cs:493-498 | after an object-mode parse the projector reads from a rule's slot the first non-null value routed to it, or the request's default when no child gave one |
| Properties.OrphanSlotRead | XmlStreamProcessor/Parser.cs:493-498 | a slot owned by no rule (a repeated name) always reads as the request's default |
| Properties.ArrayFold | XmlStreamProcessor/Parser.cs:234-239 | in array mode the slots return to their start values after each child, and the items are one projection per dispatched child, in order |
| Properties.ArrayResult | XmlStreamProcessor/Parser.cs:234-257 | an ArrayParser's value lists, per routed child in document order, the projection of the start slots (attributes included) with that child's value in its slot |
| Examples.SingleRootDocument | XmlStreamProcessor/Parser.cs:119-167 | on a whole document with one root element that has a rule, the value is the projection with the root's value in its slot, and the whole input is read |
| Examples.ArrayOfDispatches | XmlStreamProcessor/Parser.cs:234-257 | when the loop only dispatches, an ArrayParser lists one projection per dispatched child |
| Examples.AttributesCompile | XmlStreamProcessor.Test/UnitTests/Test1.cs:214-218 | `c.Attribute("b") + c.Attribute("a")` compiles to attribute rules b→0 and a→1, with no element rules |
| Examples.AttributesExample | XmlStreamProcessor.Test/UnitTests/Test1.cs:211-231 | the document of the attributes test parses to "qwezxc": each attribute lands in its slot by name although the document order (a, b) differs from the request order (b, a), and the text inside is passed over |
| Examples.AltCompile | XmlStreamProcessor.Test/UnitTests/Test1.cs:190-194 | the alternatives request compiles to an array rule whose item schema has item1→slot 0 and item2→slot 1 |
| Examples.ParseDigit | XmlStreamProcessor/Parser.cs:58-66 | the Int32 conversion the NullInt leaf applies reads a single decimal digit as its value |
| Examples.DigitLeaf | XmlStreamProcessor/Parser.cs:58-66 | the NullInt and Int leaves read a one-digit element as its number and stop on the end tag |
| Examples.AltItems | XmlStreamProcessor/Parser.cs:234-239 | each item of `<items>` is projected on a fresh pair of slots, giving [1, 20, 3] |
| Examples.AlternativesExample | XmlStreamProcessor.Test/UnitTests/Test1.cs:187-209 | the document of the alternatives test parses to [1, 20, 3] |
| Examples.StringChildFirst | XmlStreamProcessor.Test/UnitTests/Test1.cs:244 | `<Item><more/>Test with a child element stuff</Item>` gives "<more />Test with a child element stuff" |
| Examples.StringChildLast | XmlStreamProcessor.Test/UnitTests/Test1.cs:245 | `<Item>Test with a child element stuff <more/></Item>` gives "Test with a child element stuff <more />" |
| Examples.StringChildInside | XmlStreamProcessor.Test/UnitTests/Test1.cs:246 | `<Item>Test with a child element <more/> stuff</Item>` gives "Test with a child element <more /> stuff" |
| Examples.StringAfterEmptyElement | XmlStreamProcessor/Parser.cs:45-49 | in `<v>a<b/><c>x</c>z</v>` the String leaf keeps `<b />` but reads into `<c>`, dropping its tags: "a<b />xz" |
| Examples.ListCompile | XmlStreamProcessor/Parser.cs:418-424 | `a.Array("list", c => c.Type("*", d => d.Tag()))` compiles to an array rule over a one-slot wildcard item rule reading the tag name |
| Examples.EmptyElementObject | XmlStreamProcessor/Parser.cs:141-144 | an object parser started on `<a/>` stops on the very next token and gives the tag name |
| Examples.TightList | XmlStreamProcessor/Parser.cs:141-167 | with two `<a/>` items and nothing between them, the array holds only the first |
| Examples.SpacedList | XmlStreamProcessor/Parser.cs:141-167 | with something between and after two `<a/>` items, the array holds both |
| Examples.EmptySiblingSkipped | XmlStreamProcessor/Parser.cs:141-167 | `<list><x/><y/></list>` gives ["x"] |
| Examples.EmptySiblingsSpaced | XmlStreamProcessor/Parser.cs:141-167 | the same list with white space after each item gives ["x", "y"] |
| Examples.OverrunList | XmlStreamProcessor/Parser.cs:141-167 | a list whose last item is written `<a/>` and directly followed by the list's end tag returns with the cursor past that end tag, on the list's next sibling |
| Examples.ListOverrunsEndTag | XmlStreamProcessor/Parser.cs:141-167 | in `<r><list><x/></list><b>1</b></r>` the list parser started on `<list>` gives ["x"] and stops on `<b>` |
| Examples.ParentLoop | XmlStreamProcessor/Parser.cs:141-167 | the enclosing loop resumes on that sibling, so it passes over the sibling's content and never routes the sibling to its rule |
| Examples.ParentResult | XmlStreamProcessor/Parser.cs:141-167 | so a root projecting the sibling's `NullInt` slot gives null, although the sibling is present |
| Examples.ParentLosesSibling | XmlStreamProcessor/Parser.cs:141-167 | `<r><list><x/></list><b>1</b></r>` with rules for `list` and `b` projects `b` as null |
| Examples.EmptyLeafItemStep | XmlStreamProcessor/Parser.cs:34-56 | a String leaf routed an item written `<a/>` gives "" and leaves the cursor on the item, so the list's loop goes on from the item itself |
| Examples.TightLeafList | XmlStreamProcessor/Parser.cs:141-167 | two adjacent `<a/>` items read by the String leaf are both dispatched, each giving "" |
| Examples.EmptyLeafSiblingsKept | XmlStreamProcessor/Parser.cs:141-167 | `<list><x/><y/></list>` with String items gives ["", ""]: no sibling is lost |
| Examples.OneChildLoop | XmlStreamProcessor/Parser.cs:141-167 | an element holding white space, one routed child and white space: the loop passes, dispatches, passes and stops on the end tag |
| Examples.OneChildObject | XmlStreamProcessor/Parser.cs:115-170 | parsed as an object, such an element projects a slot array holding only the child's value |
| Examples.InvokeProjection | XmlStreamProcessor.Test/UnitTests/Test1.cs:285 | invoking the inner lambda gives the `Int` slot's value, or 0 when it is empty |
| Examples.InnerLambdaCompile | XmlStreamProcessor/Parser.cs:356-357 | the inner lambda's body is visited like any other: its `Int("int")` takes slot 0 and registers the "int" rule |
| Examples.InnerLambdaRun | XmlStreamProcessor/Parser.cs:115-170 | a root holding white space, `<int>` with one digit and white space gives that digit through the invocation, with the cursor on the end tag |
| Examples.InnerLambdaInner | XmlStreamProcessor.Test/UnitTests/Test1.cs:277-281 | the root of the inner-lambda test's document gives 1 |
| Examples.InnerLambdaExample | XmlStreamProcessor.Test/UnitTests/Test1.cs:273-293 | the document of the inner-lambda test parses to 1 |

## Left out

- The reader's tokenizer is not modelled: entity expansion, CDATA, comments, DTDs and markup serialisation. A document is the token sequence it would produce. Text and `ReadOuterXml` markup are data on the tokens.
- The `XmlException` a real reader throws on malformed or truncated input is not modelled. A real reader throws before the parser sees the end of such input, so the token sequences that stop inside the root stand for no real run.
- Field names are string literals in the model. `Parser.cs:370` casts the name argument to `ConstantExpression`, so a computed name throws `InvalidCastException`; `Request` cannot express such a name.
- `Unknown` stands for an unknown call with a literal first argument. All eleven `INode` methods are handled, so the unknown calls are those `object` declares. The zero-argument ones (`GetHashCode`, `ToString`, `GetType`) fail at `Parser.cs:370` with `ArgumentOutOfRangeException` when `node.Arguments[0]` is read, before the default branch at 426-427. The model does not express them.
- `ReadString` and `ReadOuterXml` follow the documented behaviour of .NET's `XmlReader`. Their implementation is not part of this model.
- Moving onto attributes with `MoveToNextAttribute` is not modelled as cursor movement. Attributes are read from the start token, and the next `Read` continues after the element, as in the source.
- The expression-tree machinery is reduced to its effect on slots and rules: `Expression.Compile`, `MakeGenericMethod`, lambda quoting, `GetLambda`'s malformed-tree exception, and the root-lambda parameter rewrite of `VisitLambda`.
- `ArrayConstructor` typing is not modelled. An array result is a list of values.
- The casts in `ParserData.Get<T>` and in the `ParserTool` wrappers are not modelled. A slot holding a value of another type would fail there.
- `Convert.ToBoolean`, `Convert.ToDecimal` and `Convert.ToDateTime` are culture-dependent, so they are parameters.
- Leaves.ParseInt32: accepts the invariant culture's signs and white space only. It omits culture-specific sign strings and the trailing NUL characters .NET tolerates.
- Engine.RunParser: an external (`Custom`) parser is a function of the tokens and its start position. The model places the cursor on the child's closing token, which the source leaves to the user's code.
- The `str == null` branch of the String parser is dead, because `ReadString` never returns null. The model has no such branch.
- The test lambdas' own arithmetic is on unbounded integers in the examples, including the `* 10` of the alternatives test, which wraps in C#.
- The object-graph tests (`GenericTest`, `TestCompositeParser`) are not reproduced as concrete documents. Their object initializers would be `Combine` projectors. What they rely on is stated generally: a rule that receives no non-null value reads its default (`someint` gives 0), by `Properties.RuleSlotRead`.

=== FILE: compiler.dfy ===
/** The schema compiler (MarkupLambdaTraverser and the BaseTypeParser
    constructor): a depth-first walk of the request graph that gives every
    field request the next slot, registers element and attribute rules, and
    rewrites the request into a slot read. */
module Compiler {
  import opened Values
  import opened Schema

  /** What the traverser updates as it visits: ArgLength and the two rule
      dictionaries. */
  datatype Traversal = Traversal(
    argLength: nat,
    elements: map<string, ElementRule>,
    attributes: map<string, nat>)

  const Fresh: Traversal := Traversal(0, map[], map[])

  /** An element request for `x` takes the next slot; the rule keeps the slot
      of the first request for `x` and takes the latest request's parser. */
  function BindElement(t: Traversal, x: string, p: Parser): Traversal
  {
    var slot := if x in t.elements then t.elements[x].slot else t.argLength;
    Traversal(t.argLength + 1, t.elements[x := ElementRule(slot, p)], t.attributes)
  }

  /** An attribute request for `x` takes the next slot; the rule is
      registered only for the first request for `x`. */
  function BindAttribute(t: Traversal, x: string): Traversal
  {
    Traversal(t.argLength + 1, t.elements,
      if x in t.attributes then t.attributes else t.attributes[x := t.argLength])
  }

  /** The rewrite of one node of the graph (VisitMethodCall for calls on the
      node parameter, the base visitor for everything else). */
  function Rewrite(e: Request, t: Traversal): Result<(Proj, Traversal)>
    decreases e, 1
  {
    match e
    case Tag => Ok((TagName, t))
    case Attribute(x) => Ok((Get(t.argLength, Null), BindAttribute(t, x)))
    case Leaf(k, x) => Ok((Get(t.argLength, LeafDefault(k)), BindElement(t, x, LeafParser(k))))
    case Type(x, sub, d) =>
      (match Compile(sub)
       case Err(err) => Err(err)
       case Ok(s) => Ok((Get(t.argLength, d), BindElement(t, x, TypeParser(s)))))
    case Array(x, sub) =>
      (match Compile(sub)
       case Err(err) => Err(err)
       case Ok(s) => Ok((Get(t.argLength, Null), BindElement(t, x, ArrayParser(s)))))
    case Custom(x, c, d) => Ok((Get(t.argLength, d), BindElement(t, x, CustomParser(c))))
    case Unknown(_, _) => Err(UnknownWrapper)
    case Combine(f, args) =>
      (match RewriteAll(args, 0, [], t)
       case Err(err) => Err(err)
       case Ok(r) => Ok((Apply(f, r.0), r.1)))
  }

  /** The arguments of a combinator, left to right, from `i` on; `done`
      holds the rewrites of the arguments before `i`. */
  function RewriteAll(args: seq<Request>, i: nat, done: seq<Proj>, t: Traversal)
    : Result<(seq<Proj>, Traversal)>
    requires i <= |args|
    decreases args, 0, |args| - i
  {
    if i == |args| then Ok((done, t))
    else
      match Rewrite(args[i], t)
      case Err(err) => Err(err)
      case Ok(r) => RewriteAll(args, i + 1, done + [r.0], r.1)
  }

  /** A schema built with a fresh traverser; the rewritten graph is its
      projector. */
  function Compile(e: Request): Result<Schema>
    decreases e, 2
  {
    match Rewrite(e, Fresh)
    case Err(err) => Err(err)
    case Ok(r) => Ok(Schema(r.1.argLength, r.1.elements, r.1.attributes, r.0))
  }

  /** MarkupLambdaTraverser: the counter and the two dictionaries, updated in
      place as the graph is visited. */
  class MarkupLambdaTraverser {
    var argLength: nat
    var elements: map<string, ElementRule>
    var attributes: map<string, nat>

    function State(): Traversal
      reads this
    {
      Traversal(argLength, elements, attributes)
    }

    constructor ()
      ensures State() == Fresh
    {
      argLength := 0;
      elements := map[];
      attributes := map[];
    }

    /** Visits a node: the arguments of a combinator in order, or a call on
      the node parameter. */
    method Visit(e: Request) returns (r: Result<Proj>)
      modifies this
      ensures match Rewrite(e, old(State()))
              case Ok(res) => r == Ok(res.0) && State() == res.1
              case Err(err) => r == Err(err)
      decreases e, 1
    {
      if !e.Combine? {
        r := VisitMethodCall(e);
        return;
      }
      var args := e.args;
      var done: seq<Proj> := [];
      var i := 0;
      while i < |args|
        invariant 0 <= i <= |args|
        invariant RewriteAll(args, i, done, State()) == RewriteAll(args, 0, [], old(State()))
      {
        var a := Visit(args[i]);
        if a.Err? {
          return Err(a.error);
        }
        done := done + [a.value];
        i := i + 1;
      }
      r := Ok(Apply(e.f, done));
    }

    /** A call on the node parameter: `Tag()` reads the tag name and takes no
        slot; every other call takes slot ArgLength, then ArgLength grows by
        one, the name's rule is registered if it is new, and the call becomes
        a read of that slot. */
    method VisitMethodCall(e: Request) returns (r: Result<Proj>)
      requires !e.Combine?
      modifies this
      ensures match Rewrite(e, old(State()))
              case Ok(res) => r == Ok(res.0) && State() == res.1
              case Err(err) => r == Err(err)
      decreases e, 0
    {
      if e.Tag? {
        return Ok(TagName);
      }
      var argN := argLength;
      argLength := argLength + 1;
      if e.Attribute? {
        if e.name !in attributes {
          attributes := attributes[e.name := argN];
        }
        return Ok(Get(argN, Null));
      }
      var slot := if e.name in elements then elements[e.name].slot else argN;
      match e {
        case Leaf(k, x) =>
          elements := elements[x := ElementRule(slot, LeafParser(k))];
          r := Ok(Get(argN, LeafDefault(k)));
        case Type(x, sub, d) =>
          var s := BuildSchema(sub);
          if s.Err? {
            return Err(s.error);
          }
          elements := elements[x := ElementRule(slot, TypeParser(s.value))];
          r := Ok(Get(argN, d));
        case Array(x, sub) =>
          var s := BuildSchema(sub);
          if s.Err? {
            return Err(s.error);
          }
          elements := elements[x := ElementRule(slot, ArrayParser(s.value))];
          r := Ok(Get(argN, Null));
        case Custom(x, c, d) =>
          elements := elements[x := ElementRule(slot, CustomParser(c))];
          r := Ok(Get(argN, d));
        case Unknown(_, _) =>
          r := Err(UnknownWrapper);
      }
    }
  }

  /** The BaseTypeParser constructor: a fresh traverser visits the graph and
      the result becomes the schema. */
  method BuildSchema(e: Request) returns (r: Result<Schema>)
    ensures r == Compile(e)
    decreases e, 2
  {
    var traverser := new MarkupLambdaTraverser();
    var p := traverser.Visit(e);
    if p.Err? {
      return Err(p.error);
    }
    r := Ok(Schema(traverser.argLength, traverser.elements, traverser.attributes, p.value));
  }

  // ---------------------------------------------------------------------
  // Slot allocation

  /** The field requests of a graph in visit order: every call on the node
      parameter except `Tag()`, not descending into nested schemas (those
      are compiled by their own traverser). */
  function Fields(e: Request): seq<Request>
    decreases e, 1
  {
    match e
    case Tag => []
    case Combine(_, args) => FieldsFrom(args, 0)
    case _ => [e]
  }

  function FieldsFrom(args: seq<Request>, i: nat): seq<Request>
    requires i <= |args|
    decreases args, 0, |args| - i
  {
    if i == |args| then [] else Fields(args[i]) + FieldsFrom(args, i + 1)
  }

  /** default(T) of the slot read a field request becomes. */
  function DefaultOf(f: Request): Value
  {
    match f
    case Leaf(k, _) => LeafDefault(k)
    case Type(_, _, d) => d
    case Custom(_, _, d) => d
    case _ => Null
  }

  /** The slot reads of a projection, left to right. */
  function Reads(p: Proj): seq<Proj>
    decreases p, 1
  {
    match p
    case Get(_, _) => [p]
    case TagName => []
    case Apply(_, args) => ReadsFrom(args, 0)
  }

  function ReadsFrom(ps: seq<Proj>, i: nat): seq<Proj>
    requires i <= |ps|
    decreases ps, 0, |ps| - i
  {
    if i == |ps| then [] else Reads(ps[i]) + ReadsFrom(ps, i + 1)
  }

  /** One slot read per field request, numbered consecutively from `n`, each
      with the default of its request's type. */
  function Numbered(fs: seq<Request>, n: nat): (r: seq<Proj>)
    ensures |r| == |fs|
  {
    seq(|fs|, i requires 0 <= i < |fs| => Get(n + i, DefaultOf(fs[i])))
  }

  lemma NumberedConcat(a: seq<Request>, b: seq<Request>, n: nat)
    ensures Numbered(a + b, n) == Numbered(a, n) + Numbered(b, n + |a|)
  {
    var l, r := Numbered(a + b, n), Numbered(a, n) + Numbered(b, n + |a|);
    assert |l| == |r|;
    forall i | 0 <= i < |l| ensures l[i] == r[i] {
      if i < |a| {
        assert (a + b)[i] == a[i];
      } else {
        assert (a + b)[i] == b[i - |a|];
      }
    }
  }

  /** Every field request takes the slot ArgLength and ArgLength then grows by
      one, so a graph's slot reads are numbered consecutively from the counter
      in visit order and the counter grows by the number of field requests;
      `Tag()` takes no slot. */
  lemma {:induction false} RewriteSlots(e: Request, t: Traversal)
    requires Rewrite(e, t).Ok?
    ensures Rewrite(e, t).value.1.argLength == t.argLength + |Fields(e)|
    ensures Reads(Rewrite(e, t).value.0) == Numbered(Fields(e), t.argLength)
    decreases e, 1
  {
    match e
    case Combine(f, args) =>
      RewriteAllSlots(args, 0, [], t);
      var ps := RewriteAll(args, 0, [], t).value.0;
      assert ps[0..] == ps;
    case _ =>
  }

  lemma {:induction false} RewriteAllSlots(args: seq<Request>, i: nat, done: seq<Proj>, t: Traversal)
    requires i <= |args| && RewriteAll(args, i, done, t).Ok?
    ensures var r := RewriteAll(args, i, done, t).value;
      && |r.0| == |done| + |args| - i
      && r.0[..|done|] == done
      && r.1.argLength == t.argLength + |FieldsFrom(args, i)|
      && ReadsFrom(r.0, |done|) == Numbered(FieldsFrom(args, i), t.argLength)
    decreases args, 0, |args| - i
  {
    if i < |args| {
      var h := Rewrite(args[i], t).value;
      RewriteSlots(args[i], t);
      RewriteAllSlots(args, i + 1, done + [h.0], h.1);
      var ps := RewriteAll(args, i, done, t).value.0;
      assert ps[..|done| + 1] == done + [h.0];
      assert ps[..|done|] == (ps[..|done| + 1])[..|done|];
      assert ps[|done|] == h.0;
      NumberedConcat(Fields(args[i]), FieldsFrom(args, i + 1), t.argLength);
    }
  }

  /** A compiled schema has one slot per field request of its graph, and its
      projector reads slots 0, 1, 2, ... in visit order, each with the default
      of its request's type: slot indices are distinct and consecutive. */
  lemma CompileSlots(e: Request)
    requires Compile(e).Ok?
    ensures Compile(e).value.argLength == |Fields(e)|
    ensures Reads(Compile(e).value.projector) == Numbered(Fields(e), 0)
    ensures forall i, j :: 0 <= i < j < |Fields(e)| ==>
      Reads(Compile(e).value.projector)[i].slot != Reads(Compile(e).value.projector)[j].slot
  {
    RewriteSlots(e, Fresh);
  }

  // ---------------------------------------------------------------------
  // Rule registration, as a fold over the field requests

  predicate IsField(f: Request)
  {
    !f.Tag? && !f.Combine?
  }

  predicate IsElementRequest(f: Request)
  {
    f.Leaf? || f.Type? || f.Array? || f.Custom?
  }

  /** The state after visiting the field requests `fs` one by one. */
  function Allocate(fs: seq<Request>, t: Traversal): Result<Traversal>
    decreases |fs|
  {
    if fs == [] then Ok(t)
    else
      match Rewrite(fs[0], t)
      case Err(err) => Err(err)
      case Ok(r) => Allocate(fs[1..], r.1)
  }

  function StateOf(r: Result<(Proj, Traversal)>): Result<Traversal>
  {
    match r
    case Err(err) => Err(err)
    case Ok(v) => Ok(v.1)
  }

  function AllocateAfter(r: Result<Traversal>, fs: seq<Request>): Result<Traversal>
  {
    match r
    case Err(err) => Err(err)
    case Ok(t) => Allocate(fs, t)
  }

  lemma {:induction false} AllocateConcat(a: seq<Request>, b: seq<Request>, t: Traversal)
    ensures Allocate(a + b, t) == AllocateAfter(Allocate(a, t), b)
    decreases |a|
  {
    if a == [] {
      assert a + b == b;
    } else {
      assert (a + b)[0] == a[0] && (a + b)[1..] == a[1..] + b;
      match Rewrite(a[0], t)
      case Err(err) =>
        assert Allocate(a + b, t) == Err(err);
        assert Allocate(a, t) == Err(err);
      case Ok(r) =>
        AllocateConcat(a[1..], b, r.1);
        assert Allocate(a + b, t) == Allocate(a[1..] + b, r.1);
        assert Allocate(a, t) == Allocate(a[1..], r.1);
    }
  }

  lemma {:induction false} FieldsAreFields(e: Request)
    ensures forall i :: 0 <= i < |Fields(e)| ==> IsField(Fields(e)[i])
    decreases e, 1
  {
    match e
    case Combine(_, args) => FieldsFromAreFields(args, 0);
    case _ =>
  }

  lemma {:induction false} FieldsFromAreFields(args: seq<Request>, i: nat)
    requires i <= |args|
    ensures forall k :: 0 <= k < |FieldsFrom(args, i)| ==> IsField(FieldsFrom(args, i)[k])
    decreases args, 0, |args| - i
  {
    if i < |args| {
      FieldsAreFields(args[i]);
      FieldsFromAreFields(args, i + 1);
      var a, b := Fields(args[i]), FieldsFrom(args, i + 1);
      forall k | 0 <= k < |a + b| ensures IsField((a + b)[k]) {
        if k < |a| { assert (a + b)[k] == a[k]; } else { assert (a + b)[k] == b[k - |a|]; }
      }
    }
  }

  /** The walk of the graph and the fold over its field requests end in the
      same state (or fail with the same error): combinators and `Tag()` touch
      no state. */
  lemma {:induction false} RewriteIsAllocate(e: Request, t: Traversal)
    ensures StateOf(Rewrite(e, t)) == Allocate(Fields(e), t)
    decreases e, 1
  {
    match e
    case Combine(f, args) => RewriteAllIsAllocate(args, 0, [], t);
    case Tag =>
    case _ =>
      assert Fields(e) == [e] && [e][1..] == [];
  }

  lemma {:induction false} RewriteAllIsAllocate(args: seq<Request>, i: nat, done: seq<Proj>, t: Traversal)
    requires i <= |args|
    ensures match RewriteAll(args, i, done, t)
            case Err(err) => Allocate(FieldsFrom(args, i), t) == Err(err)
            case Ok(r) => Allocate(FieldsFrom(args, i), t) == Ok(r.1)
    decreases args, 0, |args| - i
  {
    if i < |args| {
      RewriteIsAllocate(args[i], t);
      AllocateConcat(Fields(args[i]), FieldsFrom(args, i + 1), t);
      match Rewrite(args[i], t)
      case Err(_) =>
      case Ok(r) => RewriteAllIsAllocate(args, i + 1, done + [r.0], r.1);
    }
  }

  /** The position of the first element request for `x` in `fs`, or |fs|. */
  function FirstElement(fs: seq<Request>, x: string): (i: nat)
    ensures i <= |fs|
    ensures i < |fs| ==> IsElementRequest(fs[i]) && fs[i].name == x
    ensures forall j :: 0 <= j < i ==> !(IsElementRequest(fs[j]) && fs[j].name == x)
    decreases |fs|
  {
    if fs == [] then 0
    else if IsElementRequest(fs[0]) && fs[0].name == x then 0
    else 1 + FirstElement(fs[1..], x)
  }

  /** The position of the first attribute request for `x` in `fs`, or |fs|. */
  function FirstAttribute(fs: seq<Request>, x: string): (i: nat)
    ensures i <= |fs|
    ensures i < |fs| ==> fs[i].Attribute? && fs[i].name == x
    ensures forall j :: 0 <= j < i ==> !(fs[j].Attribute? && fs[j].name == x)
    decreases |fs|
  {
    if fs == [] then 0
    else if fs[0].Attribute? && fs[0].name == x then 0
    else 1 + FirstAttribute(fs[1..], x)
  }

  /** Visiting field requests one by one: the counter grows by one per
      request; an element name that already has a rule keeps its slot; a new
      name gets a rule exactly when some request names it, and the rule holds
      the slot of the FIRST such request. */
  lemma {:induction false} AllocateElementRules(fs: seq<Request>, t: Traversal, x: string)
    requires forall i :: 0 <= i < |fs| ==> IsField(fs[i])
    requires Allocate(fs, t).Ok?
    ensures var t' := Allocate(fs, t).value;
      && t'.argLength == t.argLength + |fs|
      && (x in t.elements ==> x in t'.elements && t'.elements[x].slot == t.elements[x].slot)
      && (x !in t.elements ==> (x in t'.elements <==> FirstElement(fs, x) < |fs|))
      && (x !in t.elements && x in t'.elements ==> t'.elements[x].slot == t.argLength + FirstElement(fs, x))
    decreases |fs|
  {
    if fs != [] {
      var t1 := Rewrite(fs[0], t).value.1;
      assert t1.argLength == t.argLength + 1;
      if IsElementRequest(fs[0]) {
        assert x in t1.elements <==> x in t.elements || fs[0].name == x;
        assert x in t.elements ==> t1.elements[x].slot == t.elements[x].slot;
        assert x !in t.elements && fs[0].name == x ==> t1.elements[x].slot == t.argLength;
      } else {
        assert t1.elements == t.elements;
      }
      AllocateElementRules(fs[1..], t1, x);
    }
  }

  /** The same for attribute rules: the slot of the first attribute request
      for a name. */
  lemma {:induction false} AllocateAttributeRules(fs: seq<Request>, t: Traversal, x: string)
    requires forall i :: 0 <= i < |fs| ==> IsField(fs[i])
    requires Allocate(fs, t).Ok?
    ensures var t' := Allocate(fs, t).value;
      && (x in t.attributes ==> x in t'.attributes && t'.attributes[x] == t.attributes[x])
      && (x !in t.attributes ==> (x in t'.attributes <==> FirstAttribute(fs, x) < |fs|))
      && (x !in t.attributes && x in t'.attributes ==> t'.attributes[x] == t.argLength + FirstAttribute(fs, x))
    decreases |fs|
  {
    if fs != [] {
      var t1 := Rewrite(fs[0], t).value.1;
      assert t1.argLength == t.argLength + 1;
      if fs[0].Attribute? {
        assert x in t1.attributes <==> x in t.attributes || fs[0].name == x;
        assert x in t.attributes ==> t1.attributes[x] == t.attributes[x];
        assert x !in t.attributes && fs[0].name == x ==> t1.attributes[x] == t.argLength;
      } else {
        assert t1.attributes == t.attributes;
      }
      AllocateAttributeRules(fs[1..], t1, x);
    }
  }

  /** The parser a field request attaches to its element rule (None when a
      nested schema fails to compile). */
  function ParserOf(f: Request): Option<Parser>
  {
    match f
    case Leaf(k, _) => Some(LeafParser(k))
    case Type(_, sub, _) => (match Compile(sub) case Ok(s) => Some(TypeParser(s)) case Err(_) => None)
    case Array(_, sub) => (match Compile(sub) case Ok(s) => Some(ArrayParser(s)) case Err(_) => None)
    case Custom(_, c, _) => Some(CustomParser(c))
    case _ => None
  }

  /** The position of the last element request for `x` in `fs`, or -1. */
  function LastElement(fs: seq<Request>, x: string): (i: int)
    ensures -1 <= i < |fs|
    ensures i >= 0 ==> IsElementRequest(fs[i]) && fs[i].name == x
    ensures forall j :: i < j < |fs| ==> !(IsElementRequest(fs[j]) && fs[j].name == x)
    decreases |fs|
  {
    if fs == [] then -1
    else
      var rest := LastElement(fs[1..], x);
      if rest >= 0 then rest + 1
      else if IsElementRequest(fs[0]) && fs[0].name == x then 0
      else -1
  }

  /** Visiting field requests one by one: a rule's parser is the one attached
      by the LAST request for its name; a name no request mentions keeps its
      rule unchanged. */
  lemma {:induction false} AllocateLastParser(fs: seq<Request>, t: Traversal, x: string)
    requires forall i :: 0 <= i < |fs| ==> IsField(fs[i])
    requires Allocate(fs, t).Ok?
    ensures var t' := Allocate(fs, t).value;
      && (LastElement(fs, x) >= 0 ==>
            x in t'.elements && ParserOf(fs[LastElement(fs, x)]) == Some(t'.elements[x].parser))
      && (LastElement(fs, x) < 0 ==>
            (x in t'.elements <==> x in t.elements) &&
            (x in t.elements ==> t'.elements[x] == t.elements[x]))
    decreases |fs|
  {
    if fs != [] {
      var t1 := Rewrite(fs[0], t).value.1;
      AllocateLastParser(fs[1..], t1, x);
      if LastElement(fs[1..], x) < 0 && IsElementRequest(fs[0]) && fs[0].name == x {
        AllocateElementRules(fs[1..], t1, x);
      }
    }
  }

  /** A field request's slot is wired to a rule exactly when it is the first
      request of its kind (element or attribute) for its name; the slot of a
      repeated request is never the slot of any rule, so traversal never
      writes it and the projector reads its default. */
  predicate IsFirstRequest(fs: seq<Request>, i: nat)
    requires i < |fs|
  {
    || (IsElementRequest(fs[i]) && FirstElement(fs, fs[i].name) == i)
    || (fs[i].Attribute? && FirstAttribute(fs, fs[i].name) == i)
  }

  lemma CompileRuleSlots(e: Request)
    requires Compile(e).Ok?
    ensures var s, fs := Compile(e).value, Fields(e);
      && (forall x :: x in s.elements <==> FirstElement(fs, x) < |fs|)
      && (forall x :: x in s.elements ==> s.elements[x].slot == FirstElement(fs, x))
      && (forall x :: x in s.attributes <==> FirstAttribute(fs, x) < |fs|)
      && (forall x :: x in s.attributes ==> s.attributes[x] == FirstAttribute(fs, x))
  {
    var s, fs := Compile(e).value, Fields(e);
    RewriteIsAllocate(e, Fresh);
    FieldsAreFields(e);
    assert Allocate(fs, Fresh) == Ok(Traversal(s.argLength, s.elements, s.attributes));
    forall x
      ensures (x in s.elements <==> FirstElement(fs, x) < |fs|)
      ensures (x in s.elements ==> s.elements[x].slot == FirstElement(fs, x))
    {
      AllocateElementRules(fs, Fresh, x);
    }
    forall x
      ensures (x in s.attributes <==> FirstAttribute(fs, x) < |fs|)
      ensures (x in s.attributes ==> s.attributes[x] == FirstAttribute(fs, x))
    {
      AllocateAttributeRules(fs, Fresh, x);
    }
  }

  lemma CompileOrphanSlots(e: Request)
    requires Compile(e).Ok?
    ensures var s, fs := Compile(e).value, Fields(e);
      forall i :: 0 <= i < |fs| ==>
        (IsFirstRequest(fs, i) <==>
          (exists x :: x in s.elements && s.elements[x].slot == i) ||
          (exists y :: y in s.attributes && s.attributes[y] == i))
  {
    var s, fs := Compile(e).value, Fields(e);
    CompileRuleSlots(e);
    forall i | 0 <= i < |fs|
      ensures IsFirstRequest(fs, i) <==>
              (exists x :: x in s.elements && s.elements[x].slot == i) ||
              (exists y :: y in s.attributes && s.attributes[y] == i)
    {
      if IsElementRequest(fs[i]) && FirstElement(fs, fs[i].name) == i {
        assert fs[i].name in s.elements;
      }
      if fs[i].Attribute? && FirstAttribute(fs, fs[i].name) == i {
        assert fs[i].name in s.attributes;
      }
    }
  }

  /** In a compiled schema, the rule for a name carries the parser of the
      last element request for that name. */
  lemma CompileRuleParser(e: Request, x: string)
    requires Compile(e).Ok?
    requires x in Compile(e).value.elements
    ensures LastElement(Fields(e), x) >= 0
    ensures ParserOf(Fields(e)[LastElement(Fields(e), x)]) == Some(Compile(e).value.elements[x].parser)
  {
    RewriteIsAllocate(e, Fresh);
    FieldsAreFields(e);
    AllocateLastParser(Fields(e), Fresh, x);
  }

  // ---------------------------------------------------------------------
  // Well-formedness of compiled schemas

  predicate TraversalWF(t: Traversal)
  {
    && (forall x :: x in t.attributes ==> t.attributes[x] < t.argLength)
    && (forall x :: x in t.elements ==> t.elements[x].slot < t.argLength)
    && (forall x :: x in t.elements ==> ParserWF(t.elements[x].parser))
    && (forall x, y :: x in t.elements && y in t.attributes ==> t.elements[x].slot != t.attributes[y])
    && (forall x, y :: x in t.elements && y in t.elements && x != y ==> t.elements[x].slot != t.elements[y].slot)
    && (forall x, y :: x in t.attributes && y in t.attributes && x != y ==> t.attributes[x] != t.attributes[y])
  }

  lemma {:induction false} WithinMono(p: Proj, n: nat, m: nat)
    requires Within(p, n) && n <= m
    ensures Within(p, m)
    decreases p
  {
    match p
    case Apply(_, args) =>
      forall i | 0 <= i < |args| ensures Within(args[i], m) {
        WithinMono(args[i], n, m);
      }
    case _ =>
  }

  /** Every compiled schema is well formed: its slot indices are all below
      its slot count, nested schemas are well formed, and element and
      attribute rules never share a slot. */
  lemma {:induction false} CompileWF(e: Request)
    requires Compile(e).Ok?
    ensures WF(Compile(e).value)
    decreases e, 2
  {
    RewriteWF(e, Fresh);
  }

  lemma BindElementWF(t: Traversal, x: string, p: Parser)
    requires TraversalWF(t) && ParserWF(p)
    ensures TraversalWF(BindElement(t, x, p))
  {
    var t' := BindElement(t, x, p);
    forall y, z | y in t'.elements && z in t'.attributes
      ensures t'.elements[y].slot != t'.attributes[z]
    {
      if y != x {
        assert t'.elements[y] == t.elements[y];
      }
    }
    forall y, z | y in t'.elements && z in t'.elements && y != z
      ensures t'.elements[y].slot != t'.elements[z].slot
    {
      if y != x && z != x {
        assert t'.elements[y] == t.elements[y] && t'.elements[z] == t.elements[z];
      } else if y == x {
        assert t'.elements[z] == t.elements[z];
      } else {
        assert t'.elements[y] == t.elements[y];
      }
    }
  }

  lemma BindAttributeWF(t: Traversal, x: string)
    requires TraversalWF(t)
    ensures TraversalWF(BindAttribute(t, x))
  {
    var t' := BindAttribute(t, x);
    forall y, z | y in t'.elements && z in t'.attributes
      ensures t'.elements[y].slot != t'.attributes[z]
    {
      if z != x || x in t.attributes {
        assert t'.attributes[z] == t.attributes[z];
      }
    }
    forall y, z | y in t'.attributes && z in t'.attributes && y != z
      ensures t'.attributes[y] != t'.attributes[z]
    {
      if x in t.attributes || (y != x && z != x) {
        assert t'.attributes[y] == t.attributes[y] && t'.attributes[z] == t.attributes[z];
      } else if y == x {
        assert t'.attributes[z] == t.attributes[z];
      } else {
        assert t'.attributes[y] == t.attributes[y];
      }
    }
  }

  lemma {:induction false} RewriteWF(e: Request, t: Traversal)
    requires TraversalWF(t) && Rewrite(e, t).Ok?
    ensures TraversalWF(Rewrite(e, t).value.1)
    ensures Within(Rewrite(e, t).value.0, Rewrite(e, t).value.1.argLength)
    ensures Rewrite(e, t).value.1.argLength >= t.argLength
    decreases e, 1
  {
    match e
    case Tag =>
    case Attribute(x) => BindAttributeWF(t, x);
    case Leaf(k, x) => BindElementWF(t, x, LeafParser(k));
    case Type(x, sub, _) =>
      CompileWF(sub);
      BindElementWF(t, x, TypeParser(Compile(sub).value));
    case Array(x, sub) =>
      CompileWF(sub);
      BindElementWF(t, x, ArrayParser(Compile(sub).value));
    case Custom(x, c, _) => BindElementWF(t, x, CustomParser(c));
    case Unknown(_, _) =>
    case Combine(_, args) =>
      RewriteAllWF(args, 0, [], t);
  }

  lemma {:induction false} RewriteAllWF(args: seq<Request>, i: nat, done: seq<Proj>, t: Traversal)
    requires i <= |args| && TraversalWF(t) && RewriteAll(args, i, done, t).Ok?
    requires forall j :: 0 <= j < |done| ==> Within(done[j], t.argLength)
    ensures var r := RewriteAll(args, i, done, t).value;
      TraversalWF(r.1) && r.1.argLength >= t.argLength &&
      forall j :: 0 <= j < |r.0| ==> Within(r.0[j], r.1.argLength)
    decreases args, 0, |args| - i
  {
    if i < |args| {
      var h := Rewrite(args[i], t).value;
      RewriteWF(args[i], t);
      forall j | 0 <= j < |done + [h.0]| ensures Within((done + [h.0])[j], h.1.argLength) {
        if j < |done| {
          WithinMono(done[j], t.argLength, h.1.argLength);
        }
      }
      RewriteAllWF(args, i + 1, done + [h.0], h.1);
    }
  }
  // ---------------------------------------------------------------------
  // Failure

  /** Whether the graph, or the graph of a nested schema, calls a node
      method the compiler does not know. */
  predicate HasUnknown(e: Request)
  {
    match e
    case Unknown(_, _) => true
    case Type(_, sub, _) => HasUnknown(sub)
    case Array(_, sub) => HasUnknown(sub)
    case Combine(_, args) => exists i :: 0 <= i < |args| && HasUnknown(args[i])
    case _ => false
  }

  /** Compilation fails exactly when some call, at any nesting level, is not
      one of the node methods, and the only failure is "unknown wrapper
      function". */
  lemma {:induction false} CompileFails(e: Request)
    ensures Compile(e).Err? <==> HasUnknown(e)
    ensures Compile(e).Err? ==> Compile(e).error == UnknownWrapper
    decreases e, 2
  {
    RewriteFails(e, Fresh);
  }

  lemma {:induction false} RewriteFails(e: Request, t: Traversal)
    ensures Rewrite(e, t).Err? <==> HasUnknown(e)
    ensures Rewrite(e, t).Err? ==> Rewrite(e, t).error == UnknownWrapper
    decreases e, 1
  {
    match e
    case Type(_, sub, _) => CompileFails(sub);
    case Array(_, sub) => CompileFails(sub);
    case Combine(_, args) => RewriteAllFails(args, 0, [], t);
    case _ =>
  }

  lemma {:induction false} RewriteAllFails(args: seq<Request>, i: nat, done: seq<Proj>, t: Traversal)
    requires i <= |args|
    ensures RewriteAll(args, i, done, t).Err? <==> exists j :: i <= j < |args| && HasUnknown(args[j])
    ensures RewriteAll(args, i, done, t).Err? ==> RewriteAll(args, i, done, t).error == UnknownWrapper
    decreases args, 0, |args| - i
  {
    if i < |args| {
      RewriteFails(args[i], t);
      match Rewrite(args[i], t)
      case Err(_) =>
      case Ok(r) => RewriteAllFails(args, i + 1, done + [r.0], r.1);
    }
  }
}

=== FILE: engine.dfy ===
/** The traversal engine (BaseTypeParser.Parse with its two node handlers):
    one forward pass over the cursor that routes the direct children of the
    start node to the schema's rules and collects their values in a slot
    array, projecting once at the end (object mode) or once per child
    (array mode). */
module Engine {
  import opened Values
  import opened Tokens
  import opened Schema
  import opened Leaves

  /** TypeParser (one object per node) or ArrayParser (one item per routed
      child). */
  datatype Mode = ObjectMode | ArrayMode

  /** A token the loop reads itself: passed over, or an element routed to a
      rule whose parser produced `value`. */
  datatype Step =
    | Pass(pos: nat)
    | Dispatch(pos: nat, slot: nat, value: Value)

  /** What a node handler holds: the slot array, the tag name and the
      projected items of array mode. */
  datatype Handler = Handler(slots: seq<Value>, tag: Value, results: seq<Value>)

  /** The depth at which the loop stops: -1 for a start with no current
      node, so that the whole input is read. */
  function RootDepth(toks: seq<Token>, p: int): int
    requires IsPos(toks, p)
  {
    if AtNone(toks, p) then -1 else toks[p].depth
  }

  /** The rule for a child: the exact name first, then the wildcard. */
  function Route(s: Schema, name: string): Option<ElementRule>
  {
    if name in s.elements then Some(s.elements[name])
    else if Wildcard in s.elements then Some(s.elements[Wildcard])
    else None
  }

  /** A child the loop routes: an element exactly one level below the root
      with a rule. */
  predicate Routed(s: Schema, toks: seq<Token>, rootDepth: int, q: int)
  {
    && 0 <= q < |toks|
    && toks[q].Element?
    && toks[q].depth == rootDepth + 1
    && Route(s, toks[q].name).Some?
  }

  /** The name of the rule a routed child goes to. */
  function RuleName(s: Schema, toks: seq<Token>, rootDepth: int, q: int): (x: string)
    requires Routed(s, toks, rootDepth, q)
    ensures x in s.elements && Route(s, toks[q].name) == Some(s.elements[x])
  {
    if toks[q].name in s.elements then toks[q].name else Wildcard
  }

  /** The rule a routed child goes to. */
  function RuleFor(s: Schema, toks: seq<Token>, rootDepth: int, q: int): (rule: ElementRule)
    requires WF(s) && Routed(s, toks, rootDepth, q)
    ensures ParserWF(rule.parser) && rule.slot < s.argLength
  {
    s.elements[RuleName(s, toks, rootDepth, q)]
  }

  predicate AttributeSlots(s: Schema, n: nat)
  {
    forall x :: x in s.attributes ==> s.attributes[x] < n
  }

  /** The attributes of the start element, in document order, each stored
      in its rule's slot. */
  function ApplyAttributes(s: Schema, attrs: seq<Attr>, slots: seq<Value>): (r: seq<Value>)
    requires AttributeSlots(s, |slots|)
    ensures |r| == |slots|
    decreases |attrs|
  {
    if attrs == [] then slots
    else
      var prev := ApplyAttributes(s, attrs[..|attrs| - 1], slots);
      var a := attrs[|attrs| - 1];
      if a.name in s.attributes then prev[s.attributes[a.name] := Str(a.value)] else prev
  }

  function EmptySlots(n: nat): (r: seq<Value>)
    ensures |r| == n
  {
    seq(n, _ => Null)
  }

  /** The handler before the loop: on an element, its tag name and its
      attributes; elsewhere, nothing. */
  function Start(s: Schema, toks: seq<Token>, p: int): (h: Handler)
    requires WF(s) && IsPos(toks, p)
    ensures |h.slots| == s.argLength
  {
    if ElementAt(toks, p) then
      Handler(ApplyAttributes(s, toks[p].attrs, EmptySlots(s.argLength)), Str(toks[p].name), [])
    else Handler(EmptySlots(s.argLength), Null, [])
  }

  /** HandleNode: in object mode a value is stored only in an empty slot;
      in array mode it is stored, the projector runs, its result is
      appended and the slot is emptied again. */
  function Handle(s: Schema, mode: Mode, h: Handler, k: nat, v: Value): (h': Handler)
    requires k < |h.slots| && Within(s.projector, |h.slots|)
    ensures |h'.slots| == |h.slots| && h'.tag == h.tag
  {
    match mode
    case ObjectMode =>
      if h.slots[k] == Null then h.(slots := h.slots[k := v]) else h
    case ArrayMode =>
      var written := h.slots[k := v];
      h.(slots := written[k := Null], results := h.results + [Eval(s.projector, written, h.tag)])
  }

  predicate StepsFit(steps: seq<Step>, n: nat)
  {
    forall i :: 0 <= i < |steps| && steps[i].Dispatch? ==> steps[i].slot < n
  }

  /** The handler after the steps of a loop, in order. */
  function Fold(s: Schema, mode: Mode, h: Handler, steps: seq<Step>): (h': Handler)
    requires StepsFit(steps, |h.slots|) && Within(s.projector, |h.slots|)
    ensures |h'.slots| == |h.slots| && h'.tag == h.tag
    decreases |steps|
  {
    if steps == [] then h
    else
      var prev := Fold(s, mode, h, steps[..|steps| - 1]);
      var last := steps[|steps| - 1];
      if last.Dispatch? then Handle(s, mode, prev, last.slot, last.value) else prev
  }

  /** GetResult: the projection of the slots (object mode) or the array of
      items (array mode). */
  function Output(s: Schema, mode: Mode, h: Handler): Value
    requires Within(s.projector, |h.slots|)
  {
    match mode
    case ObjectMode => Eval(s.projector, h.slots, h.tag)
    case ArrayMode => List(h.results)
  }

  /** The steps of the loop from cursor `q` and the cursor it stops on: it
      reads one token; at end of input or at depth `rootDepth` or less it
      stops; a routed child is handed to its rule's parser and the loop goes
      on from where that parser left the cursor; anything else is passed
      over. */
  function LoopSpec(s: Schema, env: Env, toks: seq<Token>, rootDepth: int, q: int)
    : (r: Result<(seq<Step>, int)>)
    requires WF(s) && IsPos(toks, q)
    ensures r.Ok? ==> Next(toks, q) <= r.value.1 <= |toks| && StepsFit(r.value.0, s.argLength)
    decreases |toks| - q, 0
  {
    var q' := Next(toks, q);
    if q' == |toks| || toks[q'].depth <= rootDepth then Ok(([], q'))
    else if Routed(s, toks, rootDepth, q') then
      var rule := RuleFor(s, toks, rootDepth, q');
      match RunSpec(rule.parser, env, toks, q')
      case Err(e) => Err(e)
      case Ok(child) =>
        match LoopSpec(s, env, toks, rootDepth, child.1)
        case Err(e) => Err(e)
        case Ok(rest) =>
          var steps := [Dispatch(q', rule.slot, child.0)] + rest.0;
          assert forall i :: 1 <= i < |steps| ==> steps[i] == rest.0[i - 1];
          Ok((steps, rest.1))
    else
      match LoopSpec(s, env, toks, rootDepth, q')
      case Err(e) => Err(e)
      case Ok(rest) =>
        var steps := [Pass(q')] + rest.0;
        assert forall i :: 1 <= i < |steps| ==> steps[i] == rest.0[i - 1];
        Ok((steps, rest.1))
  }

  /** A child's parser run on the child element: a leaf, a nested object or
      array, or an external consumer that leaves the cursor on the child's
      closing token. */
  function RunSpec(parser: Parser, env: Env, toks: seq<Token>, p: nat): (r: Result<(Value, int)>)
    requires ParserWF(parser) && ElementAt(toks, p)
    ensures r.Ok? ==> p <= r.value.1 <= |toks|
    decreases |toks| - p, 2
  {
    match parser
    case LeafParser(k) => LeafSpec(k, env, toks, p)
    case TypeParser(sub) => ParseSpec(sub, ObjectMode, env, toks, p)
    case ArrayParser(sub) => ParseSpec(sub, ArrayMode, env, toks, p)
    case CustomParser(consume) =>
      (match consume(toks, p)
       case Err(e) => Err(e)
       case Ok(v) => Ok((v, ClosingPos(toks, p))))
  }

  /** BaseTypeParser.Parse from cursor `p`: the value and the cursor it
      leaves. */
  function ParseSpec(s: Schema, mode: Mode, env: Env, toks: seq<Token>, p: int): (r: Result<(Value, int)>)
    requires WF(s) && IsPos(toks, p)
    ensures r.Ok? ==> p <= r.value.1 <= |toks|
    decreases |toks| - p, 1
  {
    match LoopSpec(s, env, toks, RootDepth(toks, p), p)
    case Err(e) => Err(e)
    case Ok(res) => Ok((Output(s, mode, Fold(s, mode, Start(s, toks, p), res.0)), res.1))
  }

  /** A loop result with `done` put in front of its steps. */
  function After(done: seq<Step>, r: Result<(seq<Step>, int)>): Result<(seq<Step>, int)>
  {
    match r
    case Err(e) => Err(e)
    case Ok(res) => Ok((done + res.0, res.1))
  }

  // ---------------------------------------------------------------------
  // The mutable parser state

  /** ParserData: a slot array of fixed length and the tag name. */
  class ParserData {
    const data: array<Value>
    var tagName: Value

    constructor (n: nat)
      ensures fresh(data) && data.Length == n && data[..] == EmptySlots(n) && tagName == Null
    {
      data := new Value[n](_ => Null);
      tagName := Null;
    }
  }

  /** The node handler of a TypeParser (object mode) or an ArrayParser
      (array mode): the slot array it fills and the items it has
      projected. */
  class NodeHandler {
    const schema: Schema
    const mode: Mode
    const parserData: ParserData
    var result: seq<Value>

    ghost predicate Valid()
      reads this, parserData
    {
      WF(schema) && parserData.data.Length == schema.argLength
    }

    ghost function State(): Handler
      reads this, parserData, parserData.data
    {
      Handler(parserData.data[..], parserData.tagName, result)
    }

    constructor (s: Schema, m: Mode)
      requires WF(s)
      ensures Valid() && schema == s && mode == m
      ensures State() == Handler(EmptySlots(s.argLength), Null, [])
      ensures fresh(parserData) && fresh(parserData.data)
    {
      schema := s;
      mode := m;
      parserData := new ParserData(s.argLength);
      result := [];
    }

    method HandleTagName(name: string)
      requires Valid()
      modifies parserData
      ensures Valid() && State() == old(State()).(tag := Str(name))
    {
      parserData.tagName := Str(name);
    }

    method HandleAttribute(k: nat, value: string)
      requires Valid() && k < schema.argLength
      modifies parserData.data
      ensures Valid() && State() == old(State()).(slots := old(State()).slots[k := Str(value)])
    {
      parserData.data[k] := Str(value);
    }

    method HandleNode(k: nat, v: Value)
      requires Valid() && k < schema.argLength
      modifies this, parserData.data
      ensures Valid() && State() == Handle(schema, mode, old(State()), k, v)
    {
      if mode == ObjectMode {
        if parserData.data[k] == Null {
          parserData.data[k] := v;
        }
      } else {
        parserData.data[k] := v;
        var item := Eval(schema.projector, parserData.data[..], parserData.tagName);
        result := result + [item];
        parserData.data[k] := Null;
      }
    }

    method GetResult() returns (r: Value)
      requires Valid()
      ensures r == Output(schema, mode, State())
    {
      if mode == ObjectMode {
        r := Eval(schema.projector, parserData.data[..], parserData.tagName);
      } else {
        var items := new Value[|result|](_ => Null);
        var i := 0;
        while i < |result|
          invariant 0 <= i <= |result|
          invariant items[..i] == result[..i]
        {
          items[i] := result[i];
          i := i + 1;
        }
        assert items[..] == result;
        r := List(items[..]);
      }
    }
  }

  // ---------------------------------------------------------------------
  // The parsers, reading from the cursor

  /** An external consumer reads the child's subtree and leaves the cursor
      on its closing token. */
  method ConsumeSubtree(reader: Reader)
    requires reader.Valid() && ElementAt(reader.tokens, reader.pos)
    modifies reader
    ensures reader.Valid() && reader.pos == ClosingPos(reader.tokens, old(reader.pos))
  {
    var toks := reader.tokens;
    var p: nat := reader.pos;
    if toks[p].isEmpty {
      return;
    }
    var d := toks[p].depth;
    var more := reader.Read();
    while reader.pos < |toks| && toks[reader.pos].depth > d
      invariant reader.Valid() && p < reader.pos <= |toks|
      invariant SubtreeEnd(toks, reader.pos, d) == SubtreeEnd(toks, p + 1, d)
      decreases |toks| - reader.pos
    {
      more := reader.Read();
    }
  }

  /** IXmlParser.Parse for the parser of a rule, on the child element. */
  method RunParser(parser: Parser, env: Env, reader: Reader) returns (r: Result<Value>)
    requires reader.Valid() && ParserWF(parser) && ElementAt(reader.tokens, reader.pos)
    modifies reader
    ensures reader.Valid()
    ensures match RunSpec(parser, env, reader.tokens, old(reader.pos))
            case Ok(res) => r == Ok(res.0) && reader.pos == res.1
            case Err(e) => r == Err(e)
    decreases |reader.tokens| - reader.pos, 2
  {
    match parser
    case LeafParser(k) =>
      r := ParseLeaf(k, env, reader);
    case TypeParser(sub) =>
      r := Parse(sub, ObjectMode, env, reader);
    case ArrayParser(sub) =>
      r := Parse(sub, ArrayMode, env, reader);
    case CustomParser(consume) =>
      r := consume(reader.tokens, reader.pos);
      if r.Ok? {
        ConsumeSubtree(reader);
      }
  }

  /** BaseTypeParser.Parse: record the root depth, the tag name and the
      attributes, then read until the depth drops to the root depth or the
      input ends, routing the direct children. */
  method Parse(s: Schema, mode: Mode, env: Env, reader: Reader) returns (r: Result<Value>)
    requires reader.Valid() && WF(s)
    modifies reader
    ensures reader.Valid()
    ensures match ParseSpec(s, mode, env, reader.tokens, old(reader.pos))
            case Ok(res) => r == Ok(res.0) && reader.pos == res.1
            case Err(e) => r == Err(e)
    decreases |reader.tokens| - reader.pos, 1
  {
    var handler := new NodeHandler(s, mode);
    var rootDepth := if reader.pos == -1 || reader.pos == |reader.tokens| then -1 else reader.Depth();
    HandleStart(handler, reader);
    var loop := ReadChildren(handler, env, reader, rootDepth);
    if loop.Err? {
      return Err(loop.error);
    }
    var value := handler.GetResult();
    r := Ok(value);
  }

  /** The part of Parse before the loop: on an element, the tag name, then
      the attributes that have a rule (only looked at when the element has
      attributes and the schema has attribute rules). */
  method HandleStart(handler: NodeHandler, reader: Reader)
    requires handler.Valid() && reader.Valid()
    requires handler.State() == Handler(EmptySlots(handler.schema.argLength), Null, [])
    modifies handler.parserData, handler.parserData.data
    ensures handler.Valid() && handler.State() == Start(handler.schema, reader.tokens, reader.pos)
  {
    var s := handler.schema;
    var toks := reader.tokens;
    if 0 <= reader.pos < |toks| && toks[reader.pos].Element? {
      var node := toks[reader.pos];
      handler.HandleTagName(node.name);
      if |node.attrs| > 0 && |s.attributes| > 0 {
        var i := 0;
        while i < |node.attrs|
          invariant 0 <= i <= |node.attrs|
          invariant handler.Valid()
          invariant handler.State()
                 == Handler(ApplyAttributes(s, node.attrs[..i], EmptySlots(s.argLength)), Str(node.name), [])
        {
          var a := node.attrs[i];
          assert node.attrs[..i + 1][..i] == node.attrs[..i];
          if a.name in s.attributes {
            handler.HandleAttribute(s.attributes[a.name], a.value);
          }
          i := i + 1;
        }
        assert node.attrs[..i] == node.attrs;
      } else {
        AttributesOutsideSchema(s, node.attrs, EmptySlots(s.argLength));
      }
    }
  }

  /** The loop of Parse: `while (reader.Read())`, stopping at the root
      depth, handing each routed child to its rule's parser and the value it
      returns to the handler. */
  method ReadChildren(handler: NodeHandler, env: Env, reader: Reader, rootDepth: int) returns (r: Result<()>)
    requires handler.Valid() && reader.Valid()
    modifies reader, handler, handler.parserData.data
    ensures reader.Valid() && handler.Valid()
    ensures match LoopSpec(handler.schema, env, reader.tokens, rootDepth, old(reader.pos))
            case Ok(res) =>
              && r.Ok? && reader.pos == res.1
              && handler.State() == Fold(handler.schema, handler.mode, old(handler.State()), res.0)
            case Err(e) => r == Err(e)
    decreases |reader.tokens| - reader.pos, 0
  {
    var s := handler.schema;
    var toks := reader.tokens;
    ghost var p0 := reader.pos;
    ghost var h0 := handler.State();
    ghost var steps: seq<Step> := [];
    assert After([], LoopSpec(s, env, toks, rootDepth, p0)) == LoopSpec(s, env, toks, rootDepth, p0) by {
      match LoopSpec(s, env, toks, rootDepth, p0)
      case Err(_) =>
      case Ok(rest) => assert [] + rest.0 == rest.0;
    }
    while true
      invariant reader.Valid() && p0 <= reader.pos
      invariant handler.Valid() && handler.schema == s
      invariant StepsFit(steps, s.argLength)
      invariant handler.State() == Fold(s, handler.mode, h0, steps)
      invariant After(steps, LoopSpec(s, env, toks, rootDepth, reader.pos)) == LoopSpec(s, env, toks, rootDepth, p0)
      decreases |toks| - reader.pos
    {
      ghost var q := reader.pos;
      var more := reader.Read();
      if !more || reader.Depth() <= rootDepth {
        LoopStops(s, env, toks, rootDepth, q);
        assert steps + [] == steps;
        return Ok(());
      }
      var node := toks[reader.pos];
      var rule: Option<ElementRule> := None;
      if node.Element? && node.depth == rootDepth + 1 {
        rule := Route(s, node.name);
      }
      ghost var st: Step;
      if rule.Some? {
        var v := RunParser(rule.value.parser, env, reader);
        if v.Err? {
          LoopDispatches(s, env, toks, rootDepth, q);
          return Err(v.error);
        }
        handler.HandleNode(rule.value.slot, v.value);
        st := Dispatch(q + 1, rule.value.slot, v.value);
        LoopDispatches(s, env, toks, rootDepth, q);
      } else {
        st := Pass(q + 1);
        LoopPasses(s, env, toks, rootDepth, q);
      }
      AfterAfter(steps, [st], LoopSpec(s, env, toks, rootDepth, reader.pos));
      assert (steps + [st])[..|steps|] == steps;
      steps := steps + [st];
    }
  }

  // One turn of the loop, for the proof of ReadChildren.

  lemma LoopStops(s: Schema, env: Env, toks: seq<Token>, rootDepth: int, q: int)
    requires WF(s) && IsPos(toks, q)
    requires Next(toks, q) == |toks| || toks[Next(toks, q)].depth <= rootDepth
    ensures LoopSpec(s, env, toks, rootDepth, q) == Ok(([], Next(toks, q)))
  {
  }

  lemma LoopPasses(s: Schema, env: Env, toks: seq<Token>, rootDepth: int, q: int)
    requires WF(s) && IsPos(toks, q) && q < |toks|
    requires q + 1 < |toks| && toks[q + 1].depth > rootDepth && !Routed(s, toks, rootDepth, q + 1)
    ensures LoopSpec(s, env, toks, rootDepth, q) == After([Pass(q + 1)], LoopSpec(s, env, toks, rootDepth, q + 1))
  {
  }

  lemma LoopDispatches(s: Schema, env: Env, toks: seq<Token>, rootDepth: int, q: int)
    requires WF(s) && IsPos(toks, q) && q < |toks|
    requires q + 1 < |toks| && toks[q + 1].depth > rootDepth && Routed(s, toks, rootDepth, q + 1)
    ensures var rule := RuleFor(s, toks, rootDepth, q + 1);
      match RunSpec(rule.parser, env, toks, q + 1)
      case Err(e) => LoopSpec(s, env, toks, rootDepth, q) == Err(e)
      case Ok(child) =>
        LoopSpec(s, env, toks, rootDepth, q)
        == After([Dispatch(q + 1, rule.slot, child.0)], LoopSpec(s, env, toks, rootDepth, child.1))
  {
  }

  lemma AfterAfter(a: seq<Step>, b: seq<Step>, r: Result<(seq<Step>, int)>)
    ensures After(a, After(b, r)) == After(a + b, r)
  {
    match r
    case Err(_) =>
    case Ok(res) => assert a + (b + res.0) == (a + b) + res.0;
  }

  /** Attributes the schema has no rule for are ignored; in particular,
      with no attribute rules at all the slots stay as they are. */
  lemma {:induction false} AttributesOutsideSchema(s: Schema, attrs: seq<Attr>, slots: seq<Value>)
    requires AttributeSlots(s, |slots|)
    requires forall i :: 0 <= i < |attrs| ==> attrs[i].name !in s.attributes
    ensures ApplyAttributes(s, attrs, slots) == slots
    decreases |attrs|
  {
    if attrs != [] {
      AttributesOutsideSchema(s, attrs[..|attrs| - 1], slots);
    }
  }
}

=== FILE: examples.dfy ===
/** Worked documents from the unit tests, and two consequences of the
    reader's behaviour that show in particular documents. */
module Examples {
  import opened Values
  import opened Tokens
  import opened Schema
  import opened Compiler
  import opened Leaves
  import opened Engine
  import opened Properties

  const Ws: string := "\n\t\t\t\t"

  /** A child routed to the rule for `x` (its own name, or the wildcard when
      its name has no rule) whose parser succeeds, followed by a loop that
      succeeds. */
  lemma DispatchStep(s: Schema, env: Env, toks: seq<Token>, rootDepth: int, q: int, x: string,
                     v: Value, e: int, rest: seq<Step>, end: int)
    requires WF(s) && IsPos(toks, q) && q + 1 < |toks|
    requires toks[q + 1].Element? && toks[q + 1].depth == rootDepth + 1 && x in s.elements
    requires toks[q + 1].name == x || (toks[q + 1].name !in s.elements && x == Wildcard)
    requires RunSpec(s.elements[x].parser, env, toks, q + 1) == Ok((v, e))
    requires LoopSpec(s, env, toks, rootDepth, e) == Ok((rest, end))
    ensures LoopSpec(s, env, toks, rootDepth, q) == Ok(([Dispatch(q + 1, s.elements[x].slot, v)] + rest, end))
  {
    assert RuleFor(s, toks, rootDepth, q + 1) == s.elements[x];
    LoopDispatches(s, env, toks, rootDepth, q);
  }

  /** One token passed over, followed by a loop that succeeds. */
  lemma PassStep(s: Schema, env: Env, toks: seq<Token>, rootDepth: int, q: int, rest: seq<Step>, end: int)
    requires WF(s) && IsPos(toks, q) && q < |toks|
    requires q + 1 < |toks| && toks[q + 1].depth > rootDepth && !Routed(s, toks, rootDepth, q + 1)
    requires LoopSpec(s, env, toks, rootDepth, q + 1) == Ok((rest, end))
    ensures LoopSpec(s, env, toks, rootDepth, q) == Ok(([Pass(q + 1)] + rest, end))
  {
    LoopPasses(s, env, toks, rootDepth, q);
  }

  /** A document made of white space, one root element and white space,
      read from the initial position: the top-level loop passes over the
      white space and hands the root to its rule, and the result is the
      projection of a slot array holding only the root's value. */
  lemma SingleRootDocument(s: Schema, env: Env, toks: seq<Token>, x: string, v: Value, e: int)
    requires WF(s) && 2 <= e && |toks| == e + 2
    requires toks[0].Text? && toks[0].depth == 0 && toks[e + 1].Text? && toks[e + 1].depth == 0
    requires toks[1].Element? && toks[1].depth == 0 && toks[1].name == x && x in s.elements
    requires RunSpec(s.elements[x].parser, env, toks, 1) == Ok((v, e))
    ensures LoopSpec(s, env, toks, -1, -1) == Ok(([Pass(0), Dispatch(1, s.elements[x].slot, v), Pass(e + 1)], e + 2))
    ensures ParseSpec(s, ObjectMode, env, toks, -1)
         == Ok((Eval(s.projector, EmptySlots(s.argLength)[s.elements[x].slot := v], Null), e + 2))
  {
    var k := s.elements[x].slot;
    LoopStops(s, env, toks, -1, e + 1);
    PassStep(s, env, toks, -1, e, [], e + 2);
    assert [Pass(e + 1)] + [] == [Pass(e + 1)];
    DispatchStep(s, env, toks, -1, 0, x, v, e, [Pass(e + 1)], e + 2);
    PassStep(s, env, toks, -1, -1, [Dispatch(1, k, v)] + [Pass(e + 1)], e + 2);
    var steps := [Pass(0), Dispatch(1, k, v), Pass(e + 1)];
    assert [Pass(0)] + ([Dispatch(1, k, v)] + [Pass(e + 1)]) == steps;
    var h := Start(s, toks, -1);
    assert h == Handler(EmptySlots(s.argLength), Null, []);
    assert steps[..1] == [Pass(0)] && steps[..2] == [Pass(0), Dispatch(1, k, v)];
    assert Fold(s, ObjectMode, h, steps[..1]) == h by {
      assert steps[..1][..0] == [];
    }
    assert Fold(s, ObjectMode, h, steps[..2]).slots == h.slots[k := v];
  }

  lemma {:induction false} DispatchesOnly(steps: seq<Step>)
    requires forall i :: 0 <= i < |steps| ==> steps[i].Dispatch?
    ensures Dispatches(steps) == steps
    decreases |steps|
  {
    if steps != [] {
      DispatchesOnly(steps[..|steps| - 1]);
      assert steps[..|steps| - 1] + [steps[|steps| - 1]] == steps;
    }
  }

  /** An array whose loop hands every token it reads to a rule: one item per
      step, each projected from the start element's slots. */
  lemma ArrayOfDispatches(s: Schema, env: Env, toks: seq<Token>, p: int, steps: seq<Step>, end: int)
    requires WF(s) && IsPos(toks, p) && LoopSpec(s, env, toks, RootDepth(toks, p), p) == Ok((steps, end))
    requires forall i :: 0 <= i < |steps| ==> steps[i].Dispatch?
    ensures StepsFit(steps, s.argLength)
    ensures ParseSpec(s, ArrayMode, env, toks, p) == Ok((List(Items(s, Start(s, toks, p), steps)), end))
  {
    ArrayResult(s, env, toks, p);
    DispatchesOnly(steps);
  }

  // ---------------------------------------------------------------------
  // TestAttributes: c => c.Attribute("b") + c.Attribute("a")

  /** String `+` on two attribute values (a null operand reads as empty). */
  function Concat(vs: seq<Value>): Value
  {
    var a := if |vs| > 0 && vs[0].Str? then vs[0].s else "";
    var b := if |vs| > 1 && vs[1].Str? then vs[1].s else "";
    Str(a + b)
  }

  const AttributesInner: Request := Combine(Concat, [Attribute("b"), Attribute("a")])
  const AttributesRequest: Request := Type("sample", AttributesInner, Null)

  const AttributesInnerSchema: Schema :=
    Schema(2, map[], map["b" := 0, "a" := 1], Apply(Concat, [Get(0, Null), Get(1, Null)]))

  const AttributesSchema: Schema :=
    Schema(1, map["sample" := ElementRule(0, TypeParser(AttributesInnerSchema))], map[], Get(0, Null))

  /** `<sample a='zxc' b='qwe'> 123 </sample>` with the surrounding white
      space. */
  const AttributesDoc: seq<Token> := [
    Text(0, Ws),
    Element(0, "sample", [Attr("a", "zxc"), Attr("b", "qwe")], false, "<sample a=\"zxc\" b=\"qwe\">123</sample>"),
    Text(1, "\n\t\t\t\t\t123\n\t\t\t\t"),
    EndElement(0, "sample"),
    Text(0, Ws)
  ]

  lemma AttributesCompile()
    ensures Compile(AttributesRequest) == Ok(AttributesSchema)
  {
    var args := AttributesInner.args;
    var t1 := Traversal(1, map[], map["b" := 0]);
    var t2 := Traversal(2, map[], map["b" := 0, "a" := 1]);
    assert Rewrite(args[0], Fresh) == Ok((Get(0, Null), t1));
    assert Rewrite(args[1], t1) == Ok((Get(1, Null), t2));
    assert RewriteAll(args, 2, [Get(0, Null), Get(1, Null)], t2) == Ok(([Get(0, Null), Get(1, Null)], t2));
    assert [Get(0, Null)] + [Get(1, Null)] == [Get(0, Null), Get(1, Null)];
    assert RewriteAll(args, 1, [Get(0, Null)], t1) == Ok(([Get(0, Null), Get(1, Null)], t2));
    assert [] + [Get(0, Null)] == [Get(0, Null)];
    assert RewriteAll(args, 0, [], Fresh) == Ok(([Get(0, Null), Get(1, Null)], t2));
    assert Compile(AttributesInner) == Ok(AttributesInnerSchema);
  }

  /** The inner object: both attributes in their slots, the text passed
      over, and the cursor left on the end tag. */
  lemma AttributesInnerExample(env: Env)
    ensures WF(AttributesInnerSchema)
    ensures ParseSpec(AttributesInnerSchema, ObjectMode, env, AttributesDoc, 1) == Ok((Str("qwezxc"), 3))
  {
    var toks := AttributesDoc;
    var inner := AttributesInnerSchema;
    LoopStops(inner, env, toks, 0, 2);
    PassStep(inner, env, toks, 0, 1, [], 3);
    assert [Pass(2)] + [] == [Pass(2)];
    assert LoopSpec(inner, env, toks, 0, 1) == Ok(([Pass(2)], 3));
    var start := Start(inner, toks, 1);
    assert start.slots == [Str("qwe"), Str("zxc")];
    assert Fold(inner, ObjectMode, start, [Pass(2)]) == start by {
      assert [Pass(2)][..0] == [];
    }
    assert EvalAll(inner.projector.args, start.slots, start.tag) == [Str("qwe"), Str("zxc")];
    assert Output(inner, ObjectMode, start) == Str("qwezxc");
    assert RootDepth(toks, 1) == 0;
  }

  lemma AttributesRun(env: Env)
    ensures WF(AttributesSchema)
    ensures "sample" in AttributesSchema.elements && AttributesSchema.elements["sample"].slot == 0
    ensures RunSpec(AttributesSchema.elements["sample"].parser, env, AttributesDoc, 1) == Ok((Str("qwezxc"), 3))
  {
    AttributesInnerExample(env);
    assert AttributesSchema.elements["sample"].parser == TypeParser(AttributesInnerSchema);
  }

  /** The attributes land in their slots by name: `a` comes first in the
      document but second in the request.  The text inside the element is
      passed over. */
  lemma AttributesExample(env: Env)
    ensures WF(AttributesSchema)
    ensures ParseSpec(AttributesSchema, ObjectMode, env, AttributesDoc, -1) == Ok((Str("qwezxc"), 5))
  {
    AttributesRun(env);
    SingleRootDocument(AttributesSchema, env, AttributesDoc, "sample", Str("qwezxc"), 3);
    assert EmptySlots(1)[0 := Str("qwezxc")] == [Str("qwezxc")];
  }

  // ---------------------------------------------------------------------
  // TestVariousContent: c => c.String("Item") on items holding `<more/>`

  const Stuff: string := "Test with a child element stuff"

  /** `<Item><more/>Test with a child element stuff</Item>` */
  const MoreFirst: seq<Token> := [
    Element(0, "Item", [], false, "<Item><more />" + Stuff + "</Item>"),
    Element(1, "more", [], true, "<more />"),
    Text(1, Stuff),
    EndElement(0, "Item")
  ]

  /** `<Item>Test with a child element stuff <more/></Item>` */
  const MoreLast: seq<Token> := [
    Element(0, "Item", [], false, "<Item>" + Stuff + " <more /></Item>"),
    Text(1, Stuff + " "),
    Element(1, "more", [], true, "<more />"),
    EndElement(0, "Item")
  ]

  /** `<Item>Test with a child element <more/> stuff</Item>` */
  const MoreInside: seq<Token> := [
    Element(0, "Item", [], false, "<Item>Test with a child element <more /> stuff</Item>"),
    Text(1, "Test with a child element "),
    Element(1, "more", [], true, "<more />"),
    Text(1, " stuff"),
    EndElement(0, "Item")
  ]

  /** A nested empty element is written back as its markup wherever it
      stands in the text, and the cursor ends on the end tag. */
  lemma StringChildFirst()
    ensures StringSpec(MoreFirst, 0) == Ok((Str("<more />" + Stuff), 3))
  {
    assert TextRun(MoreFirst, 1) == ("", 1);
    assert TextRun(MoreFirst, 3) == ("", 3);
    assert Stuff + "" == Stuff;
    assert TextRun(MoreFirst, 2) == (Stuff, 3);
    assert ReadStringSpec(MoreFirst, 0) == Ok(("", 1));
    assert ReadOuterXmlSpec(MoreFirst, 1) == ("<more />", 2);
    assert ReadStringSpec(MoreFirst, 2) == Ok((Stuff, 3));
    assert "" + "<more />" + Stuff == "<more />" + Stuff;
    assert StringLoop(MoreFirst, 0, 3, "<more />" + Stuff) == Ok(("<more />" + Stuff, 3));
    assert StringLoop(MoreFirst, 0, 1, "") == Ok(("<more />" + Stuff, 3));
  }

  lemma StringChildLast()
    ensures StringSpec(MoreLast, 0) == Ok((Str(Stuff + " <more />"), 3))
  {
    assert TextRun(MoreLast, 2) == ("", 2);
    assert Stuff + " " + "" == Stuff + " ";
    assert TextRun(MoreLast, 1) == (Stuff + " ", 2);
    assert TextRun(MoreLast, 3) == ("", 3);
    assert ReadStringSpec(MoreLast, 0) == Ok((Stuff + " ", 2));
    assert ReadOuterXmlSpec(MoreLast, 2) == ("<more />", 3);
    assert ReadStringSpec(MoreLast, 3) == Ok(("", 3));
    assert Stuff + " " + "<more />" + "" == Stuff + " <more />";
    assert StringLoop(MoreLast, 0, 3, Stuff + " <more />") == Ok((Stuff + " <more />", 3));
    assert StringLoop(MoreLast, 0, 2, Stuff + " ") == Ok((Stuff + " <more />", 3));
  }

  lemma StringChildInside()
    ensures StringSpec(MoreInside, 0) == Ok((Str("Test with a child element <more /> stuff"), 4))
  {
    var head := "Test with a child element ";
    assert TextRun(MoreInside, 2) == ("", 2);
    assert head + "" == head;
    assert TextRun(MoreInside, 1) == (head, 2);
    assert TextRun(MoreInside, 4) == ("", 4);
    assert " stuff" + "" == " stuff";
    assert TextRun(MoreInside, 3) == (" stuff", 4);
    assert ReadStringSpec(MoreInside, 0) == Ok((head, 2));
    assert ReadOuterXmlSpec(MoreInside, 2) == ("<more />", 3);
    assert ReadStringSpec(MoreInside, 3) == Ok((" stuff", 4));
    assert head + "<more />" + " stuff" == "Test with a child element <more /> stuff";
    assert StringLoop(MoreInside, 0, 4, "Test with a child element <more /> stuff")
        == Ok(("Test with a child element <more /> stuff", 4));
    assert StringLoop(MoreInside, 0, 2, head) == Ok(("Test with a child element <more /> stuff", 4));
  }

  /** `<v>a<b/><c>x</c>z</v>`: an empty element followed at once by a
      sibling element. */
  const Adjacent: seq<Token> := [
    Element(0, "v", [], false, "<v>a<b /><c>x</c>z</v>"),
    Text(1, "a"),
    Element(1, "b", [], true, "<b />"),
    Element(1, "c", [], false, "<c>x</c>"),
    Text(2, "x"),
    EndElement(1, "c"),
    Text(1, "z"),
    EndElement(0, "v")
  ]

  /** After the markup of a child element (here `<b/>`) the String leaf
      reads the text of an element that directly follows it, so `<c>`'s own
      tags are dropped and only its text is kept. */
  lemma StringAfterEmptyElement()
    ensures StringSpec(Adjacent, 0) == Ok((Str("a<b />xz"), 7))
  {
    assert TextRun(Adjacent, 2) == ("", 2);
    assert "a" + "" == "a";
    assert TextRun(Adjacent, 1) == ("a", 2);
    assert TextRun(Adjacent, 5) == ("", 5);
    assert TextRun(Adjacent, 7) == ("", 7);
    assert "x" + "" == "x" && "z" + "" == "z";
    assert TextRun(Adjacent, 4) == ("x", 5);
    assert TextRun(Adjacent, 6) == ("z", 7);
    assert ReadOuterXmlSpec(Adjacent, 2) == ("<b />", 3);
    assert ReadStringSpec(Adjacent, 3) == Ok(("x", 5));
    assert ReadOuterXmlSpec(Adjacent, 5) == ("", 6);
    assert ReadStringSpec(Adjacent, 6) == Ok(("z", 7));
    assert StringLoop(Adjacent, 0, 7, "a<b />xz") == Ok(("a<b />xz", 7));
    assert "a<b />x" + "" + "z" == "a<b />xz";
    assert StringLoop(Adjacent, 0, 5, "a<b />x") == Ok(("a<b />xz", 7));
    assert "a" + "<b />" + "x" == "a<b />x";
    assert StringLoop(Adjacent, 0, 2, "a") == Ok(("a<b />xz", 7));
    assert ReadStringSpec(Adjacent, 0) == Ok(("a", 2));
  }

  // ---------------------------------------------------------------------
  // TestAlternatives: a => a.Array("items", c => c.NullInt("item1") ?? (c.NullInt("item2") * 10))

  /** `??` on the first operand, then the second multiplied by ten (null
      stays null). */
  function Alternative(vs: seq<Value>): Value
  {
    if |vs| > 0 && vs[0] != Null then vs[0]
    else if |vs| > 1 && vs[1].Number? then Number(vs[1].n * 10)
    else Null
  }

  const AltItem: Request := Combine(Alternative, [Leaf(NullInt, "item1"), Leaf(NullInt, "item2")])
  const AltRequest: Request := Array("items", AltItem)

  const AltItemSchema: Schema :=
    Schema(2, map["item1" := ElementRule(0, LeafParser(NullInt)), "item2" := ElementRule(1, LeafParser(NullInt))],
      map[], Apply(Alternative, [Get(0, Null), Get(1, Null)]))

  const AltSchema: Schema :=
    Schema(1, map["items" := ElementRule(0, ArrayParser(AltItemSchema))], map[], Get(0, Null))

  lemma AltCompile()
    ensures Compile(AltRequest) == Ok(AltSchema)
  {
    var args := AltItem.args;
    var t1 := Traversal(1, map["item1" := ElementRule(0, LeafParser(NullInt))], map[]);
    var t2 := Traversal(2, AltItemSchema.elements, map[]);
    assert Rewrite(args[0], Fresh) == Ok((Get(0, Null), t1));
    assert Rewrite(args[1], t1) == Ok((Get(1, Null), t2));
    assert RewriteAll(args, 2, [Get(0, Null), Get(1, Null)], t2) == Ok(([Get(0, Null), Get(1, Null)], t2));
    assert [Get(0, Null)] + [Get(1, Null)] == [Get(0, Null), Get(1, Null)];
    assert RewriteAll(args, 1, [Get(0, Null)], t1) == Ok(([Get(0, Null), Get(1, Null)], t2));
    assert [] + [Get(0, Null)] == [Get(0, Null)];
    assert RewriteAll(args, 0, [], Fresh) == Ok(([Get(0, Null), Get(1, Null)], t2));
    assert Compile(AltItem) == Ok(AltItemSchema);
  }

  const Ws5: string := "\n\t\t\t\t\t"

  /** The document of the test, items one level inside `<items>`. */
  const AltDoc: seq<Token> := [
    Text(0, Ws),
    Element(0, "items", [], false, "<items>...</items>"),
    Text(1, Ws5),
    Element(1, "item1", [], false, "<item1>1</item1>"),
    Text(2, ['1']),
    EndElement(1, "item1"),
    Text(1, Ws5),
    Element(1, "item2", [], false, "<item2>2</item2>"),
    Text(2, ['2']),
    EndElement(1, "item2"),
    Text(1, Ws5),
    Element(1, "item1", [], false, "<item1>3</item1>"),
    Text(2, ['3']),
    EndElement(1, "item1"),
    Text(1, Ws),
    EndElement(0, "items"),
    Text(0, "\n\t\t\t")
  ]

  lemma ParseDigit(d: char)
    requires '0' <= d <= '9'
    ensures ParseInt32([d]) == Ok(d as int - '0' as int)
  {
    var n := d as int - '0' as int;
    ParseShow(n);
    assert Show(n) == [d];
  }

  /** A single digit read by the NullInt or the Int leaf. */
  lemma DigitLeaf(kind: LeafKind, env: Env, toks: seq<Token>, p: nat, d: char)
    requires kind == NullInt || kind == Int
    requires p + 2 < |toks| && toks[p].Element? && !toks[p].isEmpty
    requires '0' <= d <= '9' && toks[p + 1] == Text(toks[p].depth + 1, [d]) && toks[p + 2].EndElement?
    ensures LeafSpec(kind, env, toks, p) == Ok((Number(d as int - '0' as int), p + 2))
  {
    ParseDigit(d);
    assert TextRun(toks, p + 2) == ("", p + 2);
    assert [d] + "" == [d];
    assert ReadStringSpec(toks, p) == Ok(([d], p + 2));
  }

  /** A child routed by its exact name to a NullInt leaf, holding a single
      digit, followed by a loop that succeeds. */
  lemma DigitItemStep(s: Schema, env: Env, toks: seq<Token>, rootDepth: int, q: nat, x: string,
                      d: char, rest: seq<Step>, end: int)
    requires WF(s) && q + 3 < |toks|
    requires toks[q + 1].Element? && !toks[q + 1].isEmpty && toks[q + 1].depth == rootDepth + 1
    requires toks[q + 1].name == x && x in s.elements && s.elements[x].parser == LeafParser(NullInt)
    requires '0' <= d <= '9' && toks[q + 2] == Text(rootDepth + 2, [d]) && toks[q + 3].EndElement?
    requires LoopSpec(s, env, toks, rootDepth, q + 3) == Ok((rest, end))
    ensures LoopSpec(s, env, toks, rootDepth, q)
         == Ok(([Dispatch(q + 1, s.elements[x].slot, Number(d as int - '0' as int))] + rest, end))
  {
    DigitLeaf(NullInt, env, toks, q + 1, d);
    DispatchStep(s, env, toks, rootDepth, q, x, Number(d as int - '0' as int), q + 3, rest, end);
  }

  /** The item loop's steps: white space passed over, each item handed to
      its rule. */
  const AltSteps: seq<Step> := [
    Pass(2), Dispatch(3, 0, Number(1)), Pass(6), Dispatch(7, 1, Number(2)),
    Pass(10), Dispatch(11, 0, Number(3)), Pass(14)]

  lemma AltWF()
    ensures WF(AltItemSchema) && WF(AltSchema)
  {
  }

  lemma AltLoop13(env: Env)
    ensures WF(AltItemSchema)
    ensures LoopSpec(AltItemSchema, env, AltDoc, 0, 13) == Ok((AltSteps[6..], 15))
  {
    AltWF();
    LoopStops(AltItemSchema, env, AltDoc, 0, 14);
    PassStep(AltItemSchema, env, AltDoc, 0, 13, [], 15);
    assert [Pass(14)] + [] == AltSteps[6..];
  }

  lemma AltLoop10(env: Env)
    ensures WF(AltItemSchema)
    ensures LoopSpec(AltItemSchema, env, AltDoc, 0, 10) == Ok((AltSteps[5..], 15))
  {
    AltLoop13(env);
    DigitItemStep(AltItemSchema, env, AltDoc, 0, 10, "item1", '3', AltSteps[6..], 15);
    assert [AltSteps[5]] + AltSteps[6..] == AltSteps[5..];
  }

  lemma AltLoop9(env: Env)
    ensures WF(AltItemSchema)
    ensures LoopSpec(AltItemSchema, env, AltDoc, 0, 9) == Ok((AltSteps[4..], 15))
  {
    AltLoop10(env);
    PassStep(AltItemSchema, env, AltDoc, 0, 9, AltSteps[5..], 15);
    assert [AltSteps[4]] + AltSteps[5..] == AltSteps[4..];
  }

  lemma AltLoop6(env: Env)
    ensures WF(AltItemSchema)
    ensures LoopSpec(AltItemSchema, env, AltDoc, 0, 6) == Ok((AltSteps[3..], 15))
  {
    AltLoop9(env);
    DigitItemStep(AltItemSchema, env, AltDoc, 0, 6, "item2", '2', AltSteps[4..], 15);
    assert [AltSteps[3]] + AltSteps[4..] == AltSteps[3..];
  }

  lemma AltLoop5(env: Env)
    ensures WF(AltItemSchema)
    ensures LoopSpec(AltItemSchema, env, AltDoc, 0, 5) == Ok((AltSteps[2..], 15))
  {
    AltLoop6(env);
    PassStep(AltItemSchema, env, AltDoc, 0, 5, AltSteps[3..], 15);
    assert [AltSteps[2]] + AltSteps[3..] == AltSteps[2..];
  }

  lemma AltLoop2(env: Env)
    ensures WF(AltItemSchema)
    ensures LoopSpec(AltItemSchema, env, AltDoc, 0, 2) == Ok((AltSteps[1..], 15))
  {
    AltLoop5(env);
    DigitItemStep(AltItemSchema, env, AltDoc, 0, 2, "item1", '1', AltSteps[2..], 15);
    assert [AltSteps[1]] + AltSteps[2..] == AltSteps[1..];
  }

  lemma AltLoop1(env: Env)
    ensures WF(AltItemSchema)
    ensures LoopSpec(AltItemSchema, env, AltDoc, 0, 1) == Ok((AltSteps, 15))
  {
    AltLoop2(env);
    PassStep(AltItemSchema, env, AltDoc, 0, 1, AltSteps[1..], 15);
    assert [AltSteps[0]] + AltSteps[1..] == AltSteps;
  }

  lemma AltDispatches()
    ensures Dispatches(AltSteps) == [AltSteps[1], AltSteps[3], AltSteps[5]]
  {
    var ds := [AltSteps[1], AltSteps[3], AltSteps[5]];
    assert Dispatches(AltSteps[..1]) == [] by {
      assert AltSteps[..1][..0] == [];
    }
    assert Dispatches(AltSteps[..2]) == ds[..1] by {
      assert AltSteps[..2][..1] == AltSteps[..1];
    }
    assert Dispatches(AltSteps[..3]) == ds[..1] by {
      assert AltSteps[..3][..2] == AltSteps[..2];
    }
    assert Dispatches(AltSteps[..4]) == ds[..2] by {
      assert AltSteps[..4][..3] == AltSteps[..3];
    }
    assert Dispatches(AltSteps[..5]) == ds[..2] by {
      assert AltSteps[..5][..4] == AltSteps[..4];
    }
    assert Dispatches(AltSteps[..6]) == ds by {
      assert AltSteps[..6][..5] == AltSteps[..5];
    }
    assert AltSteps[..6] == AltSteps[..|AltSteps| - 1];
  }

  /** The projection of each item, run on a fresh pair of slots. */
  lemma AltProjections(h: Handler)
    requires h.slots == [Null, Null]
    ensures Items(AltItemSchema, h, [AltSteps[1], AltSteps[3], AltSteps[5]])
         == [Number(1), Number(20), Number(3)]
  {
    var p := AltItemSchema.projector;
    var ds := [AltSteps[1], AltSteps[3], AltSteps[5]];
    assert EvalAll(p.args, [Number(1), Null], h.tag) == [Number(1), Null];
    assert EvalAll(p.args, [Null, Number(2)], h.tag) == [Null, Number(2)];
    assert EvalAll(p.args, [Number(3), Null], h.tag) == [Number(3), Null];
    assert h.slots[0 := Number(1)] == [Number(1), Null];
    assert h.slots[1 := Number(2)] == [Null, Number(2)];
    assert h.slots[0 := Number(3)] == [Number(3), Null];
    assert Eval(p, [Number(1), Null], h.tag) == Number(1);
    assert Eval(p, [Null, Number(2)], h.tag) == Number(20);
    assert Eval(p, [Number(3), Null], h.tag) == Number(3);
    var items := Items(AltItemSchema, h, ds);
    assert items[0] == Number(1) && items[1] == Number(20) && items[2] == Number(3);
  }

  /** An item starts with both slots empty. */
  lemma AltStartSlots(toks: seq<Token>, p: int)
    requires IsPos(toks, p)
    ensures WF(AltItemSchema)
    ensures Start(AltItemSchema, toks, p).slots == [Null, Null]
  {
    AltWF();
    var h := Start(AltItemSchema, toks, p);
    ElementSlotsStartEmpty(AltItemSchema, toks, p, "item1");
    ElementSlotsStartEmpty(AltItemSchema, toks, p, "item2");
    assert h.slots[0] == Null && h.slots[1] == Null;
  }

  /** Each item gets a fresh pair of slots: the second and third items do
      not see the values of the items before them. */
  lemma AltItems(env: Env)
    ensures WF(AltItemSchema)
    ensures ParseSpec(AltItemSchema, ArrayMode, env, AltDoc, 1) == Ok((List([Number(1), Number(20), Number(3)]), 15))
  {
    AltLoop1(env);
    assert RootDepth(AltDoc, 1) == 0;
    ArrayResult(AltItemSchema, env, AltDoc, 1);
    AltDispatches();
    AltStartSlots(AltDoc, 1);
    AltProjections(Start(AltItemSchema, AltDoc, 1));
  }

  lemma AltItemsRun(env: Env)
    ensures WF(AltSchema)
    ensures "items" in AltSchema.elements && AltSchema.elements["items"].slot == 0
    ensures RunSpec(AltSchema.elements["items"].parser, env, AltDoc, 1)
         == Ok((List([Number(1), Number(20), Number(3)]), 15))
  {
    AltWF();
    AltItems(env);
    assert AltSchema.elements["items"].parser == ArrayParser(AltItemSchema);
  }

  /** The whole document gives the array [1, 20, 3]. */
  lemma AlternativesExample(env: Env)
    ensures WF(AltSchema)
    ensures ParseSpec(AltSchema, ObjectMode, env, AltDoc, -1) == Ok((List([Number(1), Number(20), Number(3)]), 17))
  {
    var v := List([Number(1), Number(20), Number(3)]);
    AltItemsRun(env);
    SingleRootDocument(AltSchema, env, AltDoc, "items", v, 15);
    assert EmptySlots(1)[0 := v] == [v];
  }

  // ---------------------------------------------------------------------
  // An array of empty elements: a => a.Array("list", c => c.Type("*", d => d.Tag()))

  const TagSchema: Schema := Schema(0, map[], map[], TagName)

  const ListSchema: Schema := Schema(1, map[Wildcard := ElementRule(0, TypeParser(TagSchema))], map[], Get(0, Null))

  const ListRequest: Request := Array("list", Type(Wildcard, Tag, Null))

  lemma ListCompile()
    ensures Compile(ListRequest) == Ok(Schema(1, map["list" := ElementRule(0, ArrayParser(ListSchema))], map[], Get(0, Null)))
  {
    assert Compile(Tag) == Ok(TagSchema);
    assert Compile(Type(Wildcard, Tag, Null)) == Ok(ListSchema);
  }

  /** `<list><x/><y/></list>`, written without white space. */
  const Tight: seq<Token> := [
    Element(0, "list", [], false, "<list><x /><y /></list>"),
    Element(1, "x", [], true, "<x />"),
    Element(1, "y", [], true, "<y />"),
    EndElement(0, "list")
  ]

  /** The same list with white space between the items. */
  const Spaced: seq<Token> := [
    Element(0, "list", [], false, "<list>\n<x />\n<y />\n</list>"),
    Element(1, "x", [], true, "<x />"),
    Text(1, "\n"),
    Element(1, "y", [], true, "<y />"),
    Text(1, "\n"),
    EndElement(0, "list")
  ]

  /** A schema that only reads the element's name. */
  predicate TagShape(t: Schema)
  {
    WF(t) && t.elements.Keys == {} && t.projector.TagName?
  }

  /** An object parser reading only the name, on an element written
      `<a/>`, stops on the token after it, whatever that token is, as long
      as it is not deeper. */
  lemma EmptyElementObject(t: Schema, env: Env, toks: seq<Token>, p: nat)
    requires TagShape(t)
    requires ElementAt(toks, p) && toks[p].isEmpty && p + 1 < |toks| && toks[p + 1].depth <= toks[p].depth
    ensures ParseSpec(t, ObjectMode, env, toks, p) == Ok((Str(toks[p].name), p + 1))
  {
    LoopStops(t, env, toks, toks[p].depth, p);
  }

  /** An item schema with one slot, projected as is, filled by the
      wildcard rule. */
  predicate ItemShape(s: Schema)
  {
    && WF(s) && s.argLength == 1 && s.projector == Get(0, Null)
    && Wildcard in s.elements && s.elements[Wildcard].slot == 0
    && (forall x :: x in s.elements ==> x == Wildcard)
  }

  /** The shape of the list's item schema: the wildcard rule's parser reads
      an element's name. */
  predicate ListShape(s: Schema)
  {
    && ItemShape(s)
    && s.elements[Wildcard].parser.TypeParser? && TagShape(s.elements[Wildcard].parser.schema)
  }

  lemma ListSchemaShape()
    ensures ListShape(ListSchema)
  {
  }

  /** One step of the list's loop over an item written `<a/>`: the item
      parser gives the tag name and the loop goes on from the token after
      the item. */
  lemma EmptyItemStep(s: Schema, env: Env, toks: seq<Token>, d: nat, q: int, rest: seq<Step>, end: int)
    requires ListShape(s)
    requires IsPos(toks, q) && q + 2 < |toks|
    requires ElementAt(toks, q + 1) && toks[q + 1].isEmpty && toks[q + 1].depth == d + 1
    requires toks[q + 1].name != Wildcard && toks[q + 2].depth <= d + 1
    requires LoopSpec(s, env, toks, d, q + 2) == Ok((rest, end))
    ensures LoopSpec(s, env, toks, d, q) == Ok(([Dispatch(q + 1, 0, Str(toks[q + 1].name))] + rest, end))
  {
    EmptyElementObject(s.elements[Wildcard].parser.schema, env, toks, q + 1);
    DispatchStep(s, env, toks, d, q, Wildcard, Str(toks[q + 1].name), q + 2, rest, end);
  }

  /** The items of a list whose projector is the slot itself. */
  lemma ListItems(s: Schema, h: Handler, steps: seq<Step>)
    requires ItemShape(s)
    requires h.slots == [Null]
    requires forall i :: 0 <= i < |steps| ==> steps[i].Dispatch? && steps[i].slot == 0
    ensures Items(s, h, steps) == seq(|steps|, i requires 0 <= i < |steps| => steps[i].value)
  {
    var items := Items(s, h, steps);
    forall i | 0 <= i < |steps|
      ensures items[i] == steps[i].value
    {
      assert h.slots[0 := steps[i].value] == [steps[i].value];
    }
  }

  /** The array parser of the list started on an element whose loop only
      dispatches: each item is the value the item parser gave. */
  lemma ListArray(s: Schema, env: Env, toks: seq<Token>, p: nat, steps: seq<Step>, end: int)
    requires ItemShape(s) && ElementAt(toks, p)
    requires LoopSpec(s, env, toks, toks[p].depth, p) == Ok((steps, end))
    requires forall i :: 0 <= i < |steps| ==> steps[i].Dispatch? && steps[i].slot == 0
    ensures ParseSpec(s, ArrayMode, env, toks, p)
         == Ok((List(seq(|steps|, i requires 0 <= i < |steps| => steps[i].value)), end))
  {
    assert RootDepth(toks, p) == toks[p].depth;
    ArrayOfDispatches(s, env, toks, p, steps, end);
    ElementSlotsStartEmpty(s, toks, p, Wildcard);
    assert Start(s, toks, p).slots == [Null];
    ListItems(s, Start(s, toks, p), steps);
  }

  /** Two items written `<a/>` with nothing between them: the item parser
      for the first stops on the second, and the array loop's next read
      moves past it, so the second item is never handed to the item
      rule. */
  lemma TightLoop(s: Schema, env: Env, toks: seq<Token>)
    requires ListShape(s)
    requires |toks| == 4
    requires ElementAt(toks, 1) && toks[1].isEmpty && toks[1].depth == 1 && toks[1].name != Wildcard
    requires toks[2].depth == 1 && toks[3].depth == 0
    ensures LoopSpec(s, env, toks, 0, 0) == Ok(([Dispatch(1, 0, Str(toks[1].name))], 3))
  {
    LoopStops(s, env, toks, 0, 2);
    EmptyItemStep(s, env, toks, 0, 0, [], 3);
    assert [Dispatch(1, 0, Str(toks[1].name))] + [] == [Dispatch(1, 0, Str(toks[1].name))];
  }

  /** Two items written `<a/>`, each followed by something no deeper than
      an item (white space, say): both items are dispatched. */
  lemma SpacedLoop(s: Schema, env: Env, toks: seq<Token>)
    requires ListShape(s)
    requires |toks| == 6
    requires ElementAt(toks, 1) && toks[1].isEmpty && toks[1].depth == 1 && toks[1].name != Wildcard
    requires ElementAt(toks, 3) && toks[3].isEmpty && toks[3].depth == 1 && toks[3].name != Wildcard
    requires toks[2].depth <= 1 && toks[4].depth <= 1 && toks[5].depth == 0
    ensures LoopSpec(s, env, toks, 0, 0)
         == Ok(([Dispatch(1, 0, Str(toks[1].name)), Dispatch(3, 0, Str(toks[3].name))], 5))
  {
    var tail := [Dispatch(3, 0, Str(toks[3].name))];
    LoopStops(s, env, toks, 0, 4);
    EmptyItemStep(s, env, toks, 0, 2, [], 5);
    assert tail + [] == tail;
    EmptyItemStep(s, env, toks, 0, 0, tail, 5);
    assert [Dispatch(1, 0, Str(toks[1].name))] + tail
        == [Dispatch(1, 0, Str(toks[1].name)), Dispatch(3, 0, Str(toks[3].name))];
  }

  lemma TightList(s: Schema, env: Env, toks: seq<Token>)
    requires ListShape(s)
    requires |toks| == 4 && ElementAt(toks, 0) && toks[0].depth == 0
    requires ElementAt(toks, 1) && toks[1].isEmpty && toks[1].depth == 1 && toks[1].name != Wildcard
    requires toks[2].depth == 1 && toks[3].depth == 0
    ensures ParseSpec(s, ArrayMode, env, toks, 0) == Ok((List([Str(toks[1].name)]), 3))
  {
    var steps := [Dispatch(1, 0, Str(toks[1].name))];
    TightLoop(s, env, toks);
    ListArray(s, env, toks, 0, steps, 3);
    assert seq(1, i requires 0 <= i < 1 => steps[i].value) == [Str(toks[1].name)];
  }

  lemma SpacedList(s: Schema, env: Env, toks: seq<Token>)
    requires ListShape(s)
    requires |toks| == 6 && ElementAt(toks, 0) && toks[0].depth == 0
    requires ElementAt(toks, 1) && toks[1].isEmpty && toks[1].depth == 1 && toks[1].name != Wildcard
    requires ElementAt(toks, 3) && toks[3].isEmpty && toks[3].depth == 1 && toks[3].name != Wildcard
    requires toks[2].depth <= 1 && toks[4].depth <= 1 && toks[5].depth == 0
    ensures ParseSpec(s, ArrayMode, env, toks, 0) == Ok((List([Str(toks[1].name), Str(toks[3].name)]), 5))
  {
    var steps := [Dispatch(1, 0, Str(toks[1].name)), Dispatch(3, 0, Str(toks[3].name))];
    SpacedLoop(s, env, toks);
    ListArray(s, env, toks, 0, steps, 5);
    assert seq(2, i requires 0 <= i < 2 => steps[i].value) == [Str(toks[1].name), Str(toks[3].name)];
  }

  /** `<list><x/><y/></list>` gives only x. */
  lemma EmptySiblingSkipped(env: Env)
    ensures WF(ListSchema)
    ensures ParseSpec(ListSchema, ArrayMode, env, Tight, 0) == Ok((List([Str("x")]), 3))
  {
    ListSchemaShape();
    TightList(ListSchema, env, Tight);
  }

  /** With white space after each item both x and y are read. */
  lemma EmptySiblingsSpaced(env: Env)
    ensures WF(ListSchema)
    ensures ParseSpec(ListSchema, ArrayMode, env, Spaced, 0) == Ok((List([Str("x"), Str("y")]), 5))
  {
    ListSchemaShape();
    SpacedList(ListSchema, env, Spaced);
  }

  /** `<r><list><x/></list><b>1</b></r>`: a list nested in a root, its
      last item written `<a/>`, followed by a sibling. */
  const Overrun: seq<Token> := [
    Element(0, "r", [], false, "<r><list><x /></list><b>1</b></r>"),
    Element(1, "list", [], false, "<list><x /></list>"),
    Element(2, "x", [], true, "<x />"),
    EndElement(1, "list"),
    Element(1, "b", [], false, "<b>1</b>"),
    Text(2, "1"),
    EndElement(1, "b"),
    EndElement(0, "r")
  ]

  /** A list whose last item is written `<a/>` and is directly followed by
      the list's end tag: the item parser stops on that end tag, and the
      list's own loop then reads the token after it, so the list parser
      returns with the cursor past its own end tag, on the list's next
      sibling.  The enclosing loop's next read moves past that sibling. */
  lemma OverrunList(s: Schema, env: Env, toks: seq<Token>)
    requires ListShape(s)
    requires 5 <= |toks| && ElementAt(toks, 1) && toks[1].depth == 1
    requires ElementAt(toks, 2) && toks[2].isEmpty && toks[2].depth == 2 && toks[2].name != Wildcard
    requires toks[3].depth == 1 && toks[4].depth == 1
    ensures ParseSpec(s, ArrayMode, env, toks, 1) == Ok((List([Str(toks[2].name)]), 4))
  {
    var steps := [Dispatch(2, 0, Str(toks[2].name))];
    LoopStops(s, env, toks, 1, 3);
    EmptyItemStep(s, env, toks, 1, 1, [], 4);
    assert steps + [] == steps;
    ListArray(s, env, toks, 1, steps, 4);
    assert seq(1, i requires 0 <= i < 1 => steps[i].value) == [Str(toks[2].name)];
  }

  /** In `<r><list><x/></list><b>1</b></r>` the list parser started on
      `<list>` gives ["x"] and leaves the cursor on `<b>`. */
  lemma ListOverrunsEndTag(env: Env)
    ensures WF(ListSchema)
    ensures ParseSpec(ListSchema, ArrayMode, env, Overrun, 1) == Ok((List([Str("x")]), 4))
  {
    ListSchemaShape();
    OverrunList(ListSchema, env, Overrun);
  }

  /** A root with rules for the list (slot 0) and for a `NullInt` child
      `b` (slot 1).  The schema is written by hand rather than compiled:
      its projector reads `b`'s slot alone, where a compiled request using
      both calls would combine both slots with `Apply`.  Only slot 1 is
      read, so the behaviour shown does not depend on that choice. */
  const ParentSchema: Schema := Schema(2,
    map["list" := ElementRule(0, ArrayParser(ListSchema)), "b" := ElementRule(1, LeafParser(NullInt))],
    map[], Get(1, Null))

  predicate ParentShape(s: Schema)
  {
    && WF(s) && s.argLength == 2 && s.projector == Get(1, Null)
    && "list" in s.elements && s.elements["list"].slot == 0
    && s.elements["list"].parser.ArrayParser? && ListShape(s.elements["list"].parser.schema)
    && "b" in s.elements && s.elements["b"].slot == 1
  }

  lemma ParentSchemaShape()
    ensures ParentShape(ParentSchema)
  {
    ListSchemaShape();
  }

  /** The enclosing loop resumes on the sibling the list parser stopped
      on, so its next read passes over that sibling's content: `b` is
      never handed to its rule. */
  lemma ParentLoop(s: Schema, env: Env, toks: seq<Token>)
    requires ParentShape(s)
    requires |toks| == 8 && ElementAt(toks, 0) && toks[0].depth == 0
    requires ElementAt(toks, 1) && toks[1].depth == 1 && toks[1].name == "list"
    requires ElementAt(toks, 2) && toks[2].isEmpty && toks[2].depth == 2 && toks[2].name != Wildcard
    requires toks[3].depth == 1 && toks[4].depth == 1
    requires !toks[5].Element? && toks[5].depth > 0 && !toks[6].Element? && toks[6].depth > 0
    requires toks[7].depth == 0
    ensures LoopSpec(s, env, toks, 0, 0)
         == Ok(([Dispatch(1, 0, List([Str(toks[2].name)])), Pass(5), Pass(6)], 7))
  {
    var v := List([Str(toks[2].name)]);
    OverrunList(s.elements["list"].parser.schema, env, toks);
    LoopStops(s, env, toks, 0, 6);
    PassStep(s, env, toks, 0, 5, [], 7);
    assert [Pass(6)] + [] == [Pass(6)];
    PassStep(s, env, toks, 0, 4, [Pass(6)], 7);
    assert [Pass(5)] + [Pass(6)] == [Pass(5), Pass(6)];
    DispatchStep(s, env, toks, 0, 0, "list", v, 4, [Pass(5), Pass(6)], 7);
    assert [Dispatch(1, 0, v)] + [Pass(5), Pass(6)] == [Dispatch(1, 0, v), Pass(5), Pass(6)];
  }

  /** So the root projects `b` as its default, null, although the
      document holds a `b` child. */
  lemma ParentResult(s: Schema, env: Env, toks: seq<Token>)
    requires ParentShape(s)
    requires |toks| == 8 && ElementAt(toks, 0) && toks[0].depth == 0
    requires ElementAt(toks, 1) && toks[1].depth == 1 && toks[1].name == "list"
    requires ElementAt(toks, 2) && toks[2].isEmpty && toks[2].depth == 2 && toks[2].name != Wildcard
    requires toks[3].depth == 1 && toks[4].depth == 1
    requires !toks[5].Element? && toks[5].depth > 0 && !toks[6].Element? && toks[6].depth > 0
    requires toks[7].depth == 0
    ensures ParseSpec(s, ObjectMode, env, toks, 0) == Ok((Null, 7))
  {
    var steps := [Dispatch(1, 0, List([Str(toks[2].name)])), Pass(5), Pass(6)];
    ParentLoop(s, env, toks);
    assert RootDepth(toks, 0) == 0;
    ObjectResult(s, env, toks, 0);
    ValuesForNone(steps, 1);
    RuleSlotRead(s, env, toks, 0, "b", Null);
  }

  /** `<r><list><x/></list><b>1</b></r>` with the root schema above gives
      null for `b`. */
  lemma ParentLosesSibling(env: Env)
    ensures WF(ParentSchema)
    ensures ParseSpec(ParentSchema, ObjectMode, env, Overrun, 0) == Ok((Null, 7))
  {
    ParentSchemaShape();
    ParentResult(ParentSchema, env, Overrun);
  }

  // ---------------------------------------------------------------------
  // TestInnerLambda: a => a.Type("root", b => ((Func<int>)(() => b.Int("int")))())

  /** The loop over an element holding white space, one child with a rule
      and white space: pass, dispatch, pass, and stop on the end tag. */
  lemma OneChildLoop(s: Schema, env: Env, toks: seq<Token>, p: nat, x: string, v: Value, e: nat)
    requires WF(s) && ElementAt(toks, p)
    requires p + 2 <= e && e + 2 < |toks|
    requires toks[p + 1].Text? && toks[p + 1].depth == toks[p].depth + 1
    requires toks[p + 2].Element? && toks[p + 2].depth == toks[p].depth + 1
    requires toks[p + 2].name == x && x in s.elements
    requires RunSpec(s.elements[x].parser, env, toks, p + 2) == Ok((v, e))
    requires toks[e + 1].Text? && toks[e + 1].depth == toks[p].depth + 1 && toks[e + 2].depth <= toks[p].depth
    ensures LoopSpec(s, env, toks, toks[p].depth, p)
         == Ok(([Pass(p + 1), Dispatch(p + 2, s.elements[x].slot, v), Pass(e + 1)], e + 2))
  {
    var d := toks[p].depth;
    var k := s.elements[x].slot;
    LoopStops(s, env, toks, d, e + 1);
    PassStep(s, env, toks, d, e, [], e + 2);
    assert [Pass(e + 1)] + [] == [Pass(e + 1)];
    DispatchStep(s, env, toks, d, p + 1, x, v, e, [Pass(e + 1)], e + 2);
    PassStep(s, env, toks, d, p, [Dispatch(p + 2, k, v)] + [Pass(e + 1)], e + 2);
    assert [Pass(p + 1)] + ([Dispatch(p + 2, k, v)] + [Pass(e + 1)])
        == [Pass(p + 1), Dispatch(p + 2, k, v), Pass(e + 1)];
  }

  /** The same element with no attributes, parsed as an object: the
      projection of a slot array holding only that child's value, with the
      cursor on the element's end tag. */
  lemma OneChildObject(s: Schema, env: Env, toks: seq<Token>, p: nat, x: string, v: Value, e: nat)
    requires WF(s) && ElementAt(toks, p) && toks[p].attrs == []
    requires p + 2 <= e && e + 2 < |toks|
    requires toks[p + 1].Text? && toks[p + 1].depth == toks[p].depth + 1
    requires toks[p + 2].Element? && toks[p + 2].depth == toks[p].depth + 1
    requires toks[p + 2].name == x && x in s.elements
    requires RunSpec(s.elements[x].parser, env, toks, p + 2) == Ok((v, e))
    requires toks[e + 1].Text? && toks[e + 1].depth == toks[p].depth + 1 && toks[e + 2].depth <= toks[p].depth
    ensures ParseSpec(s, ObjectMode, env, toks, p)
         == Ok((Eval(s.projector, EmptySlots(s.argLength)[s.elements[x].slot := v], Str(toks[p].name)), e + 2))
  {
    var k := s.elements[x].slot;
    var steps := [Pass(p + 1), Dispatch(p + 2, k, v), Pass(e + 1)];
    OneChildLoop(s, env, toks, p, x, v, e);
    assert RootDepth(toks, p) == toks[p].depth;
    var h := Start(s, toks, p);
    assert h == Handler(EmptySlots(s.argLength), Str(toks[p].name), []);
    assert steps[..1] == [Pass(p + 1)] && steps[..2] == [Pass(p + 1), Dispatch(p + 2, k, v)];
    assert Fold(s, ObjectMode, h, steps[..1]) == h by {
      assert steps[..1][..0] == [];
    }
    assert Fold(s, ObjectMode, h, steps[..2]).slots == h.slots[k := v];
  }

  /** Invoking the inner lambda: the value of its body. */
  function Invoke(vs: seq<Value>): Value
  {
    if |vs| > 0 then vs[0] else Null
  }

  /** The projector of the inner lambda reads the `Int` slot, whose empty
      value is 0. */
  lemma InvokeProjection(v: Value, tag: Value)
    ensures Eval(Apply(Invoke, [Get(0, Number(0))]), EmptySlots(1)[0 := v], tag)
         == if v == Null then Number(0) else v
  {
    var slots := EmptySlots(1)[0 := v];
    assert EvalAll([Get(0, Number(0))], slots, tag) == [GetSlot(slots, 0, Number(0))];
  }

  const InnerLambda: Request := Combine(Invoke, [Leaf(Int, "int")])
  const InnerLambdaRequest: Request := Type("root", InnerLambda, Number(0))

  const InnerLambdaInnerSchema: Schema :=
    Schema(1, map["int" := ElementRule(0, LeafParser(Int))], map[], Apply(Invoke, [Get(0, Number(0))]))

  const InnerLambdaSchema: Schema :=
    Schema(1, map["root" := ElementRule(0, TypeParser(InnerLambdaInnerSchema))], map[], Get(0, Number(0)))

  /** `<root><int>1</int></root>` with the surrounding white space. */
  const InnerLambdaDoc: seq<Token> := [
    Text(0, Ws),
    Element(0, "root", [], false, "<root>\n\t\t\t\t\t<int>1</int>\n\t\t\t\t</root>"),
    Text(1, Ws + "\t"),
    Element(1, "int", [], false, "<int>1</int>"),
    Text(2, "1"),
    EndElement(1, "int"),
    Text(1, Ws),
    EndElement(0, "root"),
    Text(0, Ws)
  ]

  /** The inner lambda's body is visited like any other: its `Int` call
      takes slot 0 and registers the rule for "int". */
  lemma InnerLambdaCompile()
    ensures Compile(InnerLambdaRequest) == Ok(InnerLambdaSchema)
  {
    var args := InnerLambda.args;
    var t1 := Traversal(1, InnerLambdaInnerSchema.elements, map[]);
    assert Rewrite(args[0], Fresh) == Ok((Get(0, Number(0)), t1));
    assert RewriteAll(args, 1, [Get(0, Number(0))], t1) == Ok(([Get(0, Number(0))], t1));
    assert [] + [Get(0, Number(0))] == [Get(0, Number(0))];
    assert RewriteAll(args, 0, [], Fresh) == Ok(([Get(0, Number(0))], t1));
    assert Compile(InnerLambda) == Ok(InnerLambdaInnerSchema);
  }

  /** The shape of the inner lambda's schema: one slot, filled by the
      `Int` rule for "int", read through the invocation. */
  ghost predicate InnerLambdaShape(s: Schema)
  {
    && WF(s) && s.argLength == 1 && s.projector == Apply(Invoke, [Get(0, Number(0))])
    && "int" in s.elements && s.elements["int"].slot == 0 && s.elements["int"].parser == LeafParser(Int)
  }

  lemma InnerLambdaSchemaShape()
    ensures InnerLambdaShape(InnerLambdaInnerSchema)
  {
    var s := InnerLambdaInnerSchema;
    assert Within(s.projector, 1) by {
      assert s.projector.args[0] == Get(0, Number(0));
    }
    assert WF(s);
    assert s.projector == Apply(Invoke, [Get(0, Number(0))]);
  }

  /** An element holding white space, `<int>` with one digit, and white
      space: the `Int` leaf reads the digit and the invocation returns it,
      with the cursor on the element's end tag. */
  lemma InnerLambdaRun(s: Schema, env: Env, toks: seq<Token>, d: char)
    requires InnerLambdaShape(s) && '0' <= d <= '9'
    requires |toks| >= 8 && ElementAt(toks, 1) && toks[1].attrs == []
    requires toks[2].Text? && toks[2].depth == toks[1].depth + 1
    requires toks[3].Element? && !toks[3].isEmpty && toks[3].depth == toks[1].depth + 1 && toks[3].name == "int"
    requires toks[4] == Text(toks[3].depth + 1, [d]) && toks[5].EndElement?
    requires toks[6].Text? && toks[6].depth == toks[1].depth + 1 && toks[7].depth <= toks[1].depth
    ensures ParseSpec(s, ObjectMode, env, toks, 1) == Ok((Number(d as int - '0' as int), 7))
  {
    var v := Number(d as int - '0' as int);
    DigitLeaf(Int, env, toks, 3, d);
    OneChildObject(s, env, toks, 1, "int", v, 5);
    InvokeProjection(v, Str(toks[1].name));
  }

  /** The root object of the test's document gives 1, with the cursor on
      `</root>`. */
  lemma InnerLambdaInner(env: Env)
    ensures WF(InnerLambdaInnerSchema)
    ensures ParseSpec(InnerLambdaInnerSchema, ObjectMode, env, InnerLambdaDoc, 1) == Ok((Number(1), 7))
  {
    InnerLambdaSchemaShape();
    InnerLambdaRun(InnerLambdaInnerSchema, env, InnerLambdaDoc, '1');
  }

  /** The document of the inner-lambda test parses to 1. */
  lemma InnerLambdaExample(env: Env)
    ensures WF(InnerLambdaSchema)
    ensures ParseSpec(InnerLambdaSchema, ObjectMode, env, InnerLambdaDoc, -1) == Ok((Number(1), 9))
  {
    InnerLambdaInner(env);
    assert InnerLambdaSchema.elements["root"].parser == TypeParser(InnerLambdaInnerSchema);
    SingleRootDocument(InnerLambdaSchema, env, InnerLambdaDoc, "root", Number(1), 7);
    assert EmptySlots(1)[0 := Number(1)] == [Number(1)];
  }

  // ---------------------------------------------------------------------
  // An array of empty elements read by a leaf: a => a.Array("list", c => c.String("*"))

  const StringListSchema: Schema := Schema(1, map[Wildcard := ElementRule(0, LeafParser(String))], map[], Get(0, Null))

  /** The item schema's wildcard rule is the String leaf. */
  predicate LeafListShape(s: Schema)
  {
    ItemShape(s) && s.elements[Wildcard].parser.LeafParser? && s.elements[Wildcard].parser.kind == String
  }

  lemma StringListSchemaShape()
    ensures LeafListShape(StringListSchema)
  {
  }

  /** One step of the list's loop over an item written `<a/>` read by the
      String leaf: the leaf gives "" and leaves the cursor on the item, so
      the loop goes on from the item itself. */
  lemma EmptyLeafItemStep(s: Schema, env: Env, toks: seq<Token>, d: nat, q: int, rest: seq<Step>, end: int)
    requires LeafListShape(s)
    requires IsPos(toks, q) && q + 1 < |toks|
    requires ElementAt(toks, q + 1) && toks[q + 1].isEmpty && toks[q + 1].depth == d + 1
    requires toks[q + 1].name != Wildcard
    requires LoopSpec(s, env, toks, d, q + 1) == Ok((rest, end))
    ensures LoopSpec(s, env, toks, d, q) == Ok(([Dispatch(q + 1, 0, Str(""))] + rest, end))
  {
    StringOfTextElement(toks, q + 1);
    assert RunSpec(s.elements[Wildcard].parser, env, toks, q + 1) == Ok((Str(""), q + 1));
    DispatchStep(s, env, toks, d, q, Wildcard, Str(""), q + 1, rest, end);
  }

  /** Two adjacent items written `<a/>`, read by the String leaf: both are
      dispatched, since the leaf does not move off an empty element. */
  lemma TightLeafList(s: Schema, env: Env, toks: seq<Token>)
    requires LeafListShape(s)
    requires |toks| == 4 && ElementAt(toks, 0) && toks[0].depth == 0
    requires ElementAt(toks, 1) && toks[1].isEmpty && toks[1].depth == 1 && toks[1].name != Wildcard
    requires ElementAt(toks, 2) && toks[2].isEmpty && toks[2].depth == 1 && toks[2].name != Wildcard
    requires toks[3].depth == 0
    ensures ParseSpec(s, ArrayMode, env, toks, 0) == Ok((List([Str(""), Str("")]), 3))
  {
    var steps := [Dispatch(1, 0, Str("")), Dispatch(2, 0, Str(""))];
    LoopStops(s, env, toks, 0, 2);
    EmptyLeafItemStep(s, env, toks, 0, 1, [], 3);
    assert [Dispatch(2, 0, Str(""))] + [] == [Dispatch(2, 0, Str(""))];
    EmptyLeafItemStep(s, env, toks, 0, 0, [Dispatch(2, 0, Str(""))], 3);
    assert [Dispatch(1, 0, Str(""))] + [Dispatch(2, 0, Str(""))] == steps;
    ListArray(s, env, toks, 0, steps, 3);
    assert seq(2, i requires 0 <= i < 2 => steps[i].value) == [Str(""), Str("")];
  }

  /** `<list><x/><y/></list>` read with String items keeps both. */
  lemma EmptyLeafSiblingsKept(env: Env)
    ensures WF(StringListSchema)
    ensures ParseSpec(StringListSchema, ArrayMode, env, Tight, 0) == Ok((List([Str(""), Str("")]), 3))
  {
    StringListSchemaShape();
    TightLeafList(StringListSchema, env, Tight);
  }
}

=== FILE: leaves.dfy ===
/** The leaf parsers (NullBool, Int, NullInt, NullDecimal, NullDate,
    String): each reads the text of the element the cursor is on and
    converts it.  The nullable ones map empty text to null; Int has no such
    check; String also collects the markup of nested elements. */
module Leaves {
  import opened Values
  import opened Tokens
  import opened Schema

  /** The culture-dependent conversions Convert.ToBoolean, Convert.ToDecimal
      and Convert.ToDateTime, as partial functions supplied from outside. */
  datatype Env = Env(
    toBoolean: string -> Result<bool>,
    toDecimal: string -> Result<real>,
    toDateTime: string -> Result<int>)

  // ---------------------------------------------------------------------
  // Convert.ToInt32 (NumberStyles.Integer)

  /** The white space NumberStyles.AllowLeadingWhite and AllowTrailingWhite
      accept: U+0009 to U+000D and the space. */
  predicate IsWhite(c: char)
  {
    c == ' ' || '\t' <= c <= '\r'
  }

  predicate IsDigit(c: char)
  {
    '0' <= c <= '9'
  }

  predicate AllDigits(s: string)
  {
    forall i :: 0 <= i < |s| ==> IsDigit(s[i])
  }

  function TrimStart(s: string): (r: string)
    ensures r == [] || !IsWhite(r[0])
    decreases |s|
  {
    if s != [] && IsWhite(s[0]) then TrimStart(s[1..]) else s
  }

  function TrimEnd(s: string): (r: string)
    ensures r == [] || !IsWhite(r[|r| - 1])
    decreases |s|
  {
    if s != [] && IsWhite(s[|s| - 1]) then TrimEnd(s[..|s| - 1]) else s
  }

  /** The value of a run of decimal digits, read left to right. */
  function DigitsValue(s: string): nat
    requires AllDigits(s)
    decreases |s|
  {
    if s == [] then 0
    else DigitsValue(s[..|s| - 1]) * 10 + (s[|s| - 1] as int - '0' as int)
  }

  /** Int32.Parse in the Integer style: optional white space, an optional
      sign, at least one decimal digit, optional white space.  A string of
      the wrong shape is a FormatError; a well-shaped number outside the
      32-bit range is an OverflowError. */
  function ParseInt32(s: string): (r: Result<int>)
    ensures r.Ok? ==> MinInt32 <= r.value <= MaxInt32
    ensures r.Err? ==> r.error == FormatError || r.error == OverflowError
    ensures s == [] ==> r == Err(FormatError)
  {
    var t := TrimEnd(TrimStart(s));
    var signed := |t| > 0 && (t[0] == '-' || t[0] == '+');
    var body := if signed then t[1..] else t;
    if body == [] || !AllDigits(body) then Err(FormatError)
    else
      var n: int := if signed && t[0] == '-' then -(DigitsValue(body) as int) else DigitsValue(body);
      if n < MinInt32 || n > MaxInt32 then Err(OverflowError) else Ok(n)
  }

  /** The decimal spelling of a natural number, most significant digit
      first, without leading zeros. */
  function Digits(n: nat): (r: string)
    ensures |r| > 0 && AllDigits(r)
    decreases n
  {
    var last := [('0' as int + n % 10) as char];
    if n < 10 then last else Digits(n / 10) + last
  }

  /** Int32.ToString for the invariant culture. */
  function Show(n: int): string
  {
    if n < 0 then "-" + Digits(-n) else Digits(n)
  }

  lemma {:induction false} DigitsValueOfDigits(n: nat)
    ensures DigitsValue(Digits(n)) == n
    decreases n
  {
    var s := Digits(n);
    if n >= 10 {
      DigitsValueOfDigits(n / 10);
      assert s[..|s| - 1] == Digits(n / 10);
    } else {
      assert s[..|s| - 1] == [];
    }
  }

  /** A printed integer has no white space to trim. */
  lemma TrimShow(n: int)
    ensures TrimEnd(TrimStart(Show(n))) == Show(n)
  {
    var s := Show(n);
    var ds := Digits(if n < 0 then -n else n);
    assert s[0] == '-' || IsDigit(s[0]);
    assert s[|s| - 1] == ds[|ds| - 1];
    assert TrimStart(s) == s;
  }

  /** Reading a printed integer gives it back when it fits in 32 bits, and
      an overflow otherwise. */
  lemma ParseShow(n: int)
    ensures ParseInt32(Show(n)) == if MinInt32 <= n <= MaxInt32 then Ok(n) else Err(OverflowError)
  {
    var s := Show(n);
    var m: nat := if n < 0 then -n else n;
    DigitsValueOfDigits(m);
    TrimShow(n);
    if n < 0 {
      assert s[1..] == Digits(m);
    }
  }

  // ---------------------------------------------------------------------
  // The conversions of the leaf parsers

  /** NumberGroupSeparator of a fresh NumberFormatInfo. */
  const GroupSeparator: char := ','

  /** The NullDecimal parser's rewrite of its text before conversion: every
      '.' becomes the group separator. */
  function ReplaceDots(s: string): (r: string)
    ensures |r| == |s|
    ensures forall i :: 0 <= i < |r| ==> r[i] != '.'
    ensures forall i :: 0 <= i < |s| && s[i] != '.' ==> r[i] == s[i]
    ensures forall i :: 0 <= i < |s| && s[i] == '.' ==> r[i] == GroupSeparator
  {
    seq(|s|, i requires 0 <= i < |s| => if s[i] == '.' then GroupSeparator else s[i])
  }

  /** The conversion step of a non-string leaf: the nullable leaves give
      null for empty text and convert anything else; Int converts
      unconditionally, so empty text is a FormatError. */
  function Convert(kind: LeafKind, env: Env, s: string): (r: Result<Value>)
    requires kind != String
    ensures r == Ok(Null) <==> s == "" && kind != Int
    ensures kind == Int && s == "" ==> r == Err(FormatError)
    ensures r.Ok? && kind == Int ==> r.value.Number? && MinInt32 <= r.value.n <= MaxInt32
    ensures r.Ok? && kind == NullInt && s != "" ==> r.value.Number? && MinInt32 <= r.value.n <= MaxInt32
  {
    match kind
    case Int =>
      (match ParseInt32(s) case Err(e) => Err(e) case Ok(n) => Ok(Number(n)))
    case NullInt =>
      if s == "" then Ok(Null)
      else (match ParseInt32(s) case Err(e) => Err(e) case Ok(n) => Ok(Number(n)))
    case NullBool =>
      if s == "" then Ok(Null)
      else (match env.toBoolean(s) case Err(e) => Err(e) case Ok(b) => Ok(Boolean(b)))
    case NullDecimal =>
      if s == "" then Ok(Null)
      else (match env.toDecimal(ReplaceDots(s)) case Err(e) => Err(e) case Ok(d) => Ok(Decimal(d)))
    case NullDate =>
      if s == "" then Ok(Null)
      else (match env.toDateTime(s) case Err(e) => Err(e) case Ok(t) => Ok(Date(t)))
  }

  // ---------------------------------------------------------------------
  // The String leaf

  /** The String parser's loop from cursor `p`, with `acc` read so far:
      while the cursor is deeper than the start node, append the markup of
      the node under the cursor and the text after it. */
  function StringLoop(toks: seq<Token>, nodeDepth: nat, p: int, acc: string): (r: Result<(string, int)>)
    requires IsPos(toks, p)
    ensures r.Ok? ==> p <= r.value.1 <= |toks| && DepthAt(toks, r.value.1) <= nodeDepth
    ensures r.Ok? ==> |acc| <= |r.value.0| && r.value.0[..|acc|] == acc
    decreases |toks| - p
  {
    if DepthAt(toks, p) <= nodeDepth then Ok((acc, p))
    else
      var (markup, q) := ReadOuterXmlSpec(toks, p);
      match ReadStringSpec(toks, q)
      case Err(e) => Err(e)
      case Ok(res) =>
        var r := StringLoop(toks, nodeDepth, res.1, acc + markup + res.0);
        assert r.Ok? ==> r.value.0[..|acc|] == (acc + markup + res.0)[..|acc|];
        r
  }

  /** The String leaf: the element's text, then the markup and text of
      anything nested inside it; never null. */
  function StringSpec(toks: seq<Token>, p: int): (r: Result<(Value, int)>)
    requires IsPos(toks, p)
    ensures r.Ok? ==> r.value.0.Str? && p <= r.value.1 <= |toks|
    ensures r.Ok? ==> DepthAt(toks, r.value.1) <= DepthAt(toks, p)
  {
    match ReadStringSpec(toks, p)
    case Err(e) => Err(e)
    case Ok(res) =>
      match StringLoop(toks, DepthAt(toks, p), res.1, res.0)
      case Err(e) => Err(e)
      case Ok(out) => Ok((Str(out.0), out.1))
  }

  /** A leaf parser run at cursor `p`: its value and the cursor after it. */
  function LeafSpec(kind: LeafKind, env: Env, toks: seq<Token>, p: int): (r: Result<(Value, int)>)
    requires IsPos(toks, p)
    ensures r.Ok? ==> p <= r.value.1 <= |toks|
  {
    if kind == String then StringSpec(toks, p)
    else
      match ReadStringSpec(toks, p)
      case Err(e) => Err(e)
      case Ok(res) =>
        match Convert(kind, env, res.0)
        case Err(e) => Err(e)
        case Ok(v) => Ok((v, res.1))
  }

  /** An element holding nothing but text (or nothing at all) gives the
      String leaf that text, and leaves the cursor on its end tag; `<a/>`
      gives the empty string and leaves the cursor on itself. */
  lemma StringOfTextElement(toks: seq<Token>, p: nat)
    requires ElementAt(toks, p)
    requires !toks[p].isEmpty ==>
      var e := TextRun(toks, p + 1).1;
      e < |toks| && toks[e].EndElement? && toks[e].depth == toks[p].depth
    ensures StringSpec(toks, p) ==
      if toks[p].isEmpty then Ok((Str(""), p))
      else Ok((Str(TextRun(toks, p + 1).0), TextRun(toks, p + 1).1))
  {
    if !toks[p].isEmpty && toks[p + 1].EndElement? {
      assert TextRun(toks, p + 1) == ("", p + 1);
    }
  }

  /** The direct content of an element of depth `d`, read from position
      `q` up to its end tag: the value of each text node and the markup of
      each child element, concatenated in document order, with the position
      of the end tag.  None when the content holds any other kind of node,
      a child element directly followed by another element, or runs out of
      input before the end tag. */
  function DirectContent(toks: seq<Token>, q: nat, d: nat): (r: Option<(string, nat)>)
    requires q <= |toks|
    ensures r.Some? ==> q <= r.value.1 < |toks|
    ensures r.Some? ==> toks[r.value.1].EndElement? && toks[r.value.1].depth == d
    decreases |toks| - q
  {
    if q == |toks| then None
    else match toks[q]
      case EndElement(depth, _) => if depth == d then Some(("", q)) else None
      case Text(depth, value) =>
        if depth != d + 1 then None
        else (match DirectContent(toks, q + 1, d)
              case None => None
              case Some(rest) => Some((value + rest.0, rest.1)))
      case Element(depth, _, _, _, markup) =>
        var n := Next(toks, ClosingPos(toks, q));
        if depth != d + 1 || (n < |toks| && toks[n].Element?) then None
        else (match DirectContent(toks, n, d)
              case None => None
              case Some(rest) => Some((markup + rest.0, rest.1)))
      case Other(_) => None
  }

  /** A text run at the front of direct content is a prefix of it. */
  lemma {:induction false} TextRunContent(toks: seq<Token>, q: nat, d: nat)
    requires q <= |toks| && DirectContent(toks, q, d).Some?
    ensures var (t, m) := TextRun(toks, q);
      && DirectContent(toks, m, d).Some?
      && DirectContent(toks, q, d).value
         == (t + DirectContent(toks, m, d).value.0, DirectContent(toks, m, d).value.1)
    decreases |toks| - q
  {
    if toks[q].Text? {
      TextRunContent(toks, q + 1, d);
      var (t, m) := TextRun(toks, q + 1);
      var c := DirectContent(toks, m, d).value.0;
      assert toks[q].value + (t + c) == (toks[q].value + t) + c;
    } else {
      assert TextRun(toks, q) == ("", q);
      assert "" + DirectContent(toks, q, d).value.0 == DirectContent(toks, q, d).value.0;
    }
  }

  /** Direct content that starts with a child element: its markup, then
      the direct content after the child's subtree, which does not start
      with an element. */
  lemma ContentAfterChild(toks: seq<Token>, q: nat, d: nat)
    requires q < |toks| && toks[q].Element? && DirectContent(toks, q, d).Some?
    ensures var n := Next(toks, ClosingPos(toks, q));
      && toks[q].depth == d + 1
      && n < |toks| && !toks[n].Element? && DirectContent(toks, n, d).Some?
      && DirectContent(toks, q, d).value
         == (toks[q].outerXml + DirectContent(toks, n, d).value.0, DirectContent(toks, n, d).value.1)
  {
  }

  /** One turn of the String loop on a child element followed by a node
      that is not an element: the child's markup, then the text run after
      it. */
  lemma StringLoopStep(toks: seq<Token>, d: nat, q: nat, acc: string)
    requires q < |toks| && toks[q].Element? && toks[q].depth > d
    requires var n := Next(toks, ClosingPos(toks, q)); n < |toks| && !toks[n].Element?
    ensures var n := Next(toks, ClosingPos(toks, q));
      StringLoop(toks, d, q, acc)
        == StringLoop(toks, d, TextRun(toks, n).1, acc + toks[q].outerXml + TextRun(toks, n).0)
  {
    var n := Next(toks, ClosingPos(toks, q));
    assert ReadOuterXmlSpec(toks, q) == (toks[q].outerXml, n);
    assert ReadStringSpec(toks, n) == Ok(TextRun(toks, n));
  }

  /** Direct content that starts with a child element: the child's
      markup, the text run after it, and the direct content after that. */
  lemma ContentOfChild(toks: seq<Token>, q: nat, d: nat)
    requires q < |toks| && toks[q].Element? && DirectContent(toks, q, d).Some?
    ensures var (t, m) := TextRun(toks, Next(toks, ClosingPos(toks, q)));
      && m < |toks| && !toks[m].Text? && DirectContent(toks, m, d).Some?
      && DirectContent(toks, q, d).value
         == (toks[q].outerXml + t + DirectContent(toks, m, d).value.0, DirectContent(toks, m, d).value.1)
  {
    var n := Next(toks, ClosingPos(toks, q));
    ContentAfterChild(toks, q, d);
    TextRunContent(toks, n, d);
    var (t, m) := TextRun(toks, n);
    var tail := DirectContent(toks, m, d).value.0;
    assert toks[q].outerXml + (t + tail) == toks[q].outerXml + t + tail;
  }

  /** A turn of the String loop on a child element inside direct content,
      given what the loop does with the content after the child's
      trailing text. */
  lemma StringLoopChildTurn(toks: seq<Token>, d: nat, q: nat, acc: string)
    requires q < |toks| && toks[q].Element? && DirectContent(toks, q, d).Some?
    requires var (t, m) := TextRun(toks, Next(toks, ClosingPos(toks, q)));
      && DirectContent(toks, m, d).Some?
      && StringLoop(toks, d, m, acc + toks[q].outerXml + t)
         == Ok((acc + toks[q].outerXml + t + DirectContent(toks, m, d).value.0, DirectContent(toks, m, d).value.1))
    ensures StringLoop(toks, d, q, acc)
         == Ok((acc + DirectContent(toks, q, d).value.0, DirectContent(toks, q, d).value.1))
  {
    var markup := toks[q].outerXml;
    ContentOfChild(toks, q, d);
    var (t, m) := TextRun(toks, Next(toks, ClosingPos(toks, q)));
    var tail := DirectContent(toks, m, d).value.0;
    ContentAfterChild(toks, q, d);
    StringLoopStep(toks, d, q, acc);
    assert acc + markup + t + tail == acc + (markup + t + tail);
  }

  /** The String loop, started after a text run inside direct content,
      appends the rest of that content and stops on the end tag. */
  lemma {:induction false} StringLoopContent(toks: seq<Token>, d: nat, q: nat, acc: string)
    requires q < |toks| && !toks[q].Text? && DirectContent(toks, q, d).Some?
    ensures StringLoop(toks, d, q, acc)
         == Ok((acc + DirectContent(toks, q, d).value.0, DirectContent(toks, q, d).value.1))
    decreases |toks| - q
  {
    if toks[q].EndElement? {
      assert acc + "" == acc;
    } else {
      ContentOfChild(toks, q, d);
      var (t, m) := TextRun(toks, Next(toks, ClosingPos(toks, q)));
      StringLoopContent(toks, d, m, acc + toks[q].outerXml + t);
      StringLoopChildTurn(toks, d, q, acc);
    }
  }

  /** An element whose direct content is text and child elements, no child
      element directly followed by another, gives the String leaf its
      texts and its children's markup in document order, and leaves the
      cursor on its end tag. */
  lemma StringOfMixedContent(toks: seq<Token>, p: nat)
    requires ElementAt(toks, p) && !toks[p].isEmpty
    requires p + 1 <= |toks| && DirectContent(toks, p + 1, toks[p].depth).Some?
    ensures var c := DirectContent(toks, p + 1, toks[p].depth).value;
      StringSpec(toks, p) == Ok((Str(c.0), c.1))
  {
    var d := toks[p].depth;
    assert ReadStringSpec(toks, p) == Ok(TextRun(toks, p + 1));
    TextRunContent(toks, p + 1, d);
    var (t, m) := TextRun(toks, p + 1);
    StringLoopContent(toks, d, m, t);
  }

  // ---------------------------------------------------------------------
  // The leaf parsers, reading from the cursor

  /** The String parser: ReadString, then while the cursor is deeper than
      the start node, ReadOuterXml and ReadString again. */
  method ParseString(reader: Reader) returns (r: Result<Value>)
    requires reader.Valid()
    modifies reader
    ensures reader.Valid()
    ensures match StringSpec(reader.tokens, old(reader.pos))
            case Ok(res) => r == Ok(res.0) && reader.pos == res.1
            case Err(e) => r == Err(e)
  {
    var nodeDepth := reader.Depth();
    ghost var p0 := reader.pos;
    var first := reader.ReadString();
    if first.Err? {
      return Err(first.error);
    }
    var str := first.value;
    while reader.Depth() > nodeDepth
      invariant reader.Valid()
      invariant StringLoop(reader.tokens, nodeDepth, reader.pos, str)
             == StringLoop(reader.tokens, nodeDepth, ReadStringSpec(reader.tokens, p0).value.1,
                           ReadStringSpec(reader.tokens, p0).value.0)
      decreases |reader.tokens| - reader.pos
    {
      var markup := reader.ReadOuterXml();
      str := str + markup;
      var text := reader.ReadString();
      if text.Err? {
        return Err(text.error);
      }
      str := str + text.value;
    }
    if str == "" {
      return Ok(Str(""));
    }
    r := Ok(Str(str));
  }

  /** A leaf parser: the String parser, or ReadString followed by the
      kind's conversion. */
  method ParseLeaf(kind: LeafKind, env: Env, reader: Reader) returns (r: Result<Value>)
    requires reader.Valid()
    modifies reader
    ensures reader.Valid()
    ensures match LeafSpec(kind, env, reader.tokens, old(reader.pos))
            case Ok(res) => r == Ok(res.0) && reader.pos == res.1
            case Err(e) => r == Err(e)
  {
    if kind == String {
      r := ParseString(reader);
      return;
    }
    var s := reader.ReadString();
    if s.Err? {
      return Err(s.error);
    }
    r := Convert(kind, env, s.value);
  }
}

=== FILE: properties.dfy ===
/** What the traversal promises: which tokens the loop reads and routes,
    where it stops, and what the two slot-handling modes make of the values
    the children produce. */
module Properties {
  import opened Values
  import opened Tokens
  import opened Schema
  import opened Leaves
  import opened Engine

  // ---------------------------------------------------------------------
  // The loop

  /** Where the loop reads after step `i`: the next step, or the token it
      stops on. */
  function NextPos(steps: seq<Step>, i: nat, end: int): int
    requires i < |steps|
  {
    if i + 1 < |steps| then steps[i + 1].pos else end
  }

  /** The steps of a loop from cursor `q` that stops on `end`:
      - the first read is at Next(q), and every step is a token deeper than
        the root;
      - a step is a dispatch exactly when its token is an element one level
        below the root with a rule (exact name first, then `*`);
      - a passed token is followed by the very next token, so everything
        deeper is read and passed over one token at a time;
      - a dispatch stores what the rule's parser returns in the rule's slot,
        and the loop reads next after where that parser left the cursor;
      - the loop stops at end of input or on a token no deeper than the
        root. */
  predicate Traced(s: Schema, env: Env, toks: seq<Token>, rootDepth: int, q: int, steps: seq<Step>, end: int)
    requires WF(s) && IsPos(toks, q)
  {
    && (if steps == [] then end == Next(toks, q) else steps[0].pos == Next(toks, q))
    && (forall i :: 0 <= i < |steps| ==> TraceStep(s, env, toks, rootDepth, steps, i, end))
    && (end == |toks| || (0 <= end < |toks| && toks[end].depth <= rootDepth))
  }

  /** Step `i` of a loop, as Traced describes it. */
  predicate TraceStep(s: Schema, env: Env, toks: seq<Token>, rootDepth: int, steps: seq<Step>, i: nat, end: int)
    requires WF(s) && i < |steps|
  {
    var st := steps[i];
    && st.pos < |toks| && toks[st.pos].depth > rootDepth
    && if Routed(s, toks, rootDepth, st.pos) then
         var rule := RuleFor(s, toks, rootDepth, st.pos);
         var child := RunSpec(rule.parser, env, toks, st.pos);
         && st.Dispatch? && st.slot == rule.slot
         && child.Ok? && child.value.0 == st.value
         && NextPos(steps, i, end) == Next(toks, child.value.1)
       else
         st.Pass? && NextPos(steps, i, end) == st.pos + 1
  }

  /** The loop's steps are exactly those described by Traced. */
  lemma {:induction false} LoopTrace(s: Schema, env: Env, toks: seq<Token>, rootDepth: int, q: int)
    requires WF(s) && IsPos(toks, q) && LoopSpec(s, env, toks, rootDepth, q).Ok?
    ensures var r := LoopSpec(s, env, toks, rootDepth, q).value;
      Traced(s, env, toks, rootDepth, q, r.0, r.1)
    decreases |toks| - q
  {
    var q' := Next(toks, q);
    var r := LoopSpec(s, env, toks, rootDepth, q).value;
    if q' == |toks| || toks[q'].depth <= rootDepth {
      assert r == ([], q');
    } else {
      var next: int;
      var first: Step;
      if Routed(s, toks, rootDepth, q') {
        var rule := RuleFor(s, toks, rootDepth, q');
        var child := RunSpec(rule.parser, env, toks, q').value;
        next := child.1;
        first := Dispatch(q', rule.slot, child.0);
        LoopDispatches(s, env, toks, rootDepth, q);
      } else {
        next := q';
        first := Pass(q');
        LoopPasses(s, env, toks, rootDepth, q);
      }
      LoopTrace(s, env, toks, rootDepth, next);
      var rest := LoopSpec(s, env, toks, rootDepth, next).value;
      assert r == ([first] + rest.0, rest.1);
      assert NextPos(r.0, 0, r.1) == Next(toks, next);
      TracedCons(s, env, toks, rootDepth, q, next, first, rest.0, rest.1);
    }
  }

  /** A trace with one more step in front. */
  lemma TracedCons(s: Schema, env: Env, toks: seq<Token>, rootDepth: int, q: int, next: int,
                   first: Step, rest: seq<Step>, end: int)
    requires WF(s) && IsPos(toks, q) && IsPos(toks, next)
    requires first.pos == Next(toks, q) && Traced(s, env, toks, rootDepth, next, rest, end)
    requires TraceStep(s, env, toks, rootDepth, [first] + rest, 0, end)
    ensures Traced(s, env, toks, rootDepth, q, [first] + rest, end)
  {
    var steps := [first] + rest;
    forall i | 0 <= i < |steps| ensures TraceStep(s, env, toks, rootDepth, steps, i, end) {
      if i > 0 {
        assert steps[i] == rest[i - 1];
        assert NextPos(steps, i, end) == NextPos(rest, i - 1, end);
        assert TraceStep(s, env, toks, rootDepth, rest, i - 1, end);
      }
    }
  }

  /** The cursor only moves forward: the steps are in document order,
      strictly after the start and strictly before where the loop stops. */
  lemma {:induction false} TraceOrdered(s: Schema, env: Env, toks: seq<Token>, rootDepth: int, q: int, steps: seq<Step>, end: int)
    requires WF(s) && IsPos(toks, q) && Traced(s, env, toks, rootDepth, q, steps, end)
    ensures forall i :: 0 <= i < |steps| ==> q < steps[i].pos < end
    ensures forall i, j :: 0 <= i < j < |steps| ==> steps[i].pos < steps[j].pos
  {
    forall i | 0 <= i < |steps| ensures steps[i].pos < NextPos(steps, i, end) {
      assert TraceStep(s, env, toks, rootDepth, steps, i, end);
    }
    forall i, j | 0 <= i < j < |steps| ensures steps[i].pos < steps[j].pos {
      StepsIncrease(steps, end, i, j);
    }
    forall i | 0 <= i < |steps| ensures q < steps[i].pos < end {
      if i > 0 {
        StepsIncrease(steps, end, 0, i);
      }
      if i < |steps| - 1 {
        StepsIncrease(steps, end, i, |steps| - 1);
      }
    }
  }

  lemma {:induction false} StepsIncrease(steps: seq<Step>, end: int, i: nat, j: nat)
    requires forall k :: 0 <= k < |steps| ==> steps[k].pos < NextPos(steps, k, end)
    requires i < j < |steps|
    ensures steps[i].pos < steps[j].pos
    decreases j - i
  {
    if i + 1 < j {
      StepsIncrease(steps, end, i + 1, j);
    }
    assert steps[i].pos < NextPos(steps, i, end);
  }

  /** A parse from a cursor with no current node has root depth -1: the
      loop reads to the end of the input, the tag name is null and every
      slot starts empty. */
  lemma NoneStartReadsAll(s: Schema, mode: Mode, env: Env, toks: seq<Token>, p: int)
    requires WF(s) && IsPos(toks, p) && AtNone(toks, p)
    requires LoopSpec(s, env, toks, RootDepth(toks, p), p).Ok?
    ensures LoopSpec(s, env, toks, RootDepth(toks, p), p).value.1 == |toks|
    ensures Start(s, toks, p) == Handler(EmptySlots(s.argLength), Null, [])
  {
    LoopTrace(s, env, toks, RootDepth(toks, p), p);
  }

  /** Where a parse stops: at end of input, or on a token no deeper than the
      node it started on. */
  lemma ParseStops(s: Schema, mode: Mode, env: Env, toks: seq<Token>, p: int)
    requires WF(s) && IsPos(toks, p) && ParseSpec(s, mode, env, toks, p).Ok?
    ensures var e := ParseSpec(s, mode, env, toks, p).value.1;
      0 <= e && p <= e && (e == |toks| || toks[e].depth <= RootDepth(toks, p))
  {
    LoopTrace(s, env, toks, RootDepth(toks, p), p);
  }

  // ---------------------------------------------------------------------
  // The start node

  /** The value of the last attribute named `x`. */
  function LastAttribute(attrs: seq<Attr>, x: string): (r: Option<string>)
    ensures r.Some? <==> exists i :: 0 <= i < |attrs| && attrs[i].name == x
    decreases |attrs|
  {
    if attrs == [] then None
    else if attrs[|attrs| - 1].name == x then Some(attrs[|attrs| - 1].value)
    else
      var r := LastAttribute(attrs[..|attrs| - 1], x);
      assert forall i :: 0 <= i < |attrs| - 1 ==> attrs[..|attrs| - 1][i] == attrs[i];
      r
  }

  predicate IsAttributeSlot(s: Schema, k: nat)
  {
    exists x :: x in s.attributes && s.attributes[x] == k
  }

  lemma {:induction false} ApplyAttributesSlots(s: Schema, attrs: seq<Attr>, slots: seq<Value>)
    requires WF(s) && AttributeSlots(s, |slots|)
    ensures var r := ApplyAttributes(s, attrs, slots);
      && (forall x :: x in s.attributes ==>
            r[s.attributes[x]] == match LastAttribute(attrs, x) case Some(v) => Str(v) case None => slots[s.attributes[x]])
      && (forall k :: 0 <= k < |slots| && !IsAttributeSlot(s, k) ==> r[k] == slots[k])
    decreases |attrs|
  {
    if attrs != [] {
      ApplyAttributesSlots(s, attrs[..|attrs| - 1], slots);
    }
  }

  /** Before the loop: on an element the tag name is recorded and every
      attribute with a rule is stored (the last one of a name wins); every
      other slot is empty; at any other node nothing is recorded. */
  lemma StartState(s: Schema, toks: seq<Token>, p: int)
    requires WF(s) && IsPos(toks, p)
    ensures var h := Start(s, toks, p);
      && h.results == []
      && h.tag == (if ElementAt(toks, p) then Str(toks[p].name) else Null)
      && (forall x :: x in s.attributes ==>
            h.slots[s.attributes[x]] ==
              if !ElementAt(toks, p) then Null
              else match LastAttribute(toks[p].attrs, x) case Some(v) => Str(v) case None => Null)
      && (forall k :: 0 <= k < s.argLength && !IsAttributeSlot(s, k) ==> h.slots[k] == Null)
  {
    if ElementAt(toks, p) {
      ApplyAttributesSlots(s, toks[p].attrs, EmptySlots(s.argLength));
    }
  }

  /** Element rules never share a slot with an attribute rule, so their
      slots start empty. */
  lemma ElementSlotsStartEmpty(s: Schema, toks: seq<Token>, p: int, x: string)
    requires WF(s) && IsPos(toks, p) && x in s.elements
    ensures Start(s, toks, p).slots[s.elements[x].slot] == Null
  {
    StartState(s, toks, p);
    assert !IsAttributeSlot(s, s.elements[x].slot);
  }

  // ---------------------------------------------------------------------
  // Object mode

  /** The values the steps hand to slot `k`, in order. */
  function ValuesFor(steps: seq<Step>, k: nat): seq<Value>
    decreases |steps|
  {
    if steps == [] then []
    else
      var last := steps[|steps| - 1];
      ValuesFor(steps[..|steps| - 1], k) + (if last.Dispatch? && last.slot == k then [last.value] else [])
  }

  /** The first non-null value, or null. */
  function FirstNonNull(vs: seq<Value>): (v: Value)
    ensures v != Null ==> v in vs
    ensures v == Null <==> forall i :: 0 <= i < |vs| ==> vs[i] == Null
    decreases |vs|
  {
    if vs == [] then Null
    else if vs[0] != Null then vs[0]
    else FirstNonNull(vs[1..])
  }

  lemma {:induction false} FirstNonNullSnoc(vs: seq<Value>, v: Value)
    ensures FirstNonNull(vs + [v]) == if FirstNonNull(vs) != Null then FirstNonNull(vs) else v
    decreases |vs|
  {
    if vs != [] {
      assert (vs + [v])[1..] == vs[1..] + [v];
      FirstNonNullSnoc(vs[1..], v);
    } else {
      assert [] + [v] == [v];
    }
  }

  /** Object mode keeps the first non-null value a slot is given: a slot
      that already holds a value keeps it, an empty one ends up with the
      first non-null value handed to it (or stays empty). */
  lemma {:induction false} ObjectFold(s: Schema, h: Handler, steps: seq<Step>, k: nat)
    requires StepsFit(steps, |h.slots|) && Within(s.projector, |h.slots|) && k < |h.slots|
    ensures var h' := Fold(s, ObjectMode, h, steps);
      && h'.results == h.results
      && h'.slots[k] == if h.slots[k] != Null then h.slots[k] else FirstNonNull(ValuesFor(steps, k))
    decreases |steps|
  {
    if steps != [] {
      var init := steps[..|steps| - 1];
      var last := steps[|steps| - 1];
      assert forall i :: 0 <= i < |init| ==> init[i] == steps[i];
      ObjectFold(s, h, init, k);
      if last.Dispatch? && last.slot == k {
        FirstNonNullSnoc(ValuesFor(init, k), last.value);
      } else {
        assert ValuesFor(steps, k) == ValuesFor(init, k) + [];
        assert ValuesFor(init, k) + [] == ValuesFor(init, k);
      }
    }
  }

  /** A TypeParser's value: the projector applied to the start slots, where
      every element rule's slot holds the first non-null value among the
      children routed to that rule, in document order (null if none). */
  lemma ObjectResult(s: Schema, env: Env, toks: seq<Token>, p: int)
    requires WF(s) && IsPos(toks, p) && LoopSpec(s, env, toks, RootDepth(toks, p), p).Ok?
    ensures var loop := LoopSpec(s, env, toks, RootDepth(toks, p), p).value;
      var h := Fold(s, ObjectMode, Start(s, toks, p), loop.0);
      && ParseSpec(s, ObjectMode, env, toks, p) == Ok((Eval(s.projector, h.slots, h.tag), loop.1))
      && h.tag == Start(s, toks, p).tag
      && (forall x :: x in s.elements ==>
            h.slots[s.elements[x].slot] == FirstNonNull(ValuesFor(loop.0, s.elements[x].slot)))
  {
    var loop := LoopSpec(s, env, toks, RootDepth(toks, p), p).value;
    forall x | x in s.elements
      ensures Fold(s, ObjectMode, Start(s, toks, p), loop.0).slots[s.elements[x].slot]
           == FirstNonNull(ValuesFor(loop.0, s.elements[x].slot))
    {
      ElementSlotsStartEmpty(s, toks, p, x);
      ObjectFold(s, Start(s, toks, p), loop.0, s.elements[x].slot);
    }
  }

  lemma {:induction false} ValuesForNone(steps: seq<Step>, k: nat)
    requires forall i :: 0 <= i < |steps| && steps[i].Dispatch? ==> steps[i].slot != k
    ensures ValuesFor(steps, k) == []
    decreases |steps|
  {
    if steps != [] {
      ValuesForNone(steps[..|steps| - 1], k);
    }
  }

  /** The loop only hands values to element rule slots. */
  lemma DispatchesToRuleSlots(s: Schema, env: Env, toks: seq<Token>, rootDepth: int, q: int)
    requires WF(s) && IsPos(toks, q) && LoopSpec(s, env, toks, rootDepth, q).Ok?
    ensures var steps := LoopSpec(s, env, toks, rootDepth, q).value.0;
      forall i :: 0 <= i < |steps| && steps[i].Dispatch? ==>
        exists x :: x in s.elements && s.elements[x].slot == steps[i].slot
  {
    var r := LoopSpec(s, env, toks, rootDepth, q).value;
    LoopTrace(s, env, toks, rootDepth, q);
    forall i | 0 <= i < |r.0| && r.0[i].Dispatch?
      ensures exists x :: x in s.elements && s.elements[x].slot == r.0[i].slot
    {
      assert TraceStep(s, env, toks, rootDepth, r.0, i, r.1);
      var x := RuleName(s, toks, rootDepth, r.0[i].pos);
      assert s.elements[x].slot == r.0[i].slot;
    }
  }

  /** In object mode a slot no element rule owns keeps its start value:
      an attribute slot keeps what the start node's attribute gave it, and
      a slot taken by a repeated name (which no rule owns) stays empty, so
      its read gives the default. */
  lemma NonElementSlotsKept(s: Schema, env: Env, toks: seq<Token>, p: int, k: nat)
    requires WF(s) && IsPos(toks, p) && LoopSpec(s, env, toks, RootDepth(toks, p), p).Ok?
    requires k < s.argLength && forall x :: x in s.elements ==> s.elements[x].slot != k
    ensures var loop := LoopSpec(s, env, toks, RootDepth(toks, p), p).value;
      && Fold(s, ObjectMode, Start(s, toks, p), loop.0).slots[k] == Start(s, toks, p).slots[k]
      && (!IsAttributeSlot(s, k) ==> Fold(s, ObjectMode, Start(s, toks, p), loop.0).slots[k] == Null)
  {
    var loop := LoopSpec(s, env, toks, RootDepth(toks, p), p).value;
    DispatchesToRuleSlots(s, env, toks, RootDepth(toks, p), p);
    ValuesForNone(loop.0, k);
    ObjectFold(s, Start(s, toks, p), loop.0, k);
    StartState(s, toks, p);
  }

  /** What the projector reads from an element rule's slot after an
      object-mode parse: the first non-null value routed to the rule, or the
      request's default when every routed child gave null (or none came). */
  lemma RuleSlotRead(s: Schema, env: Env, toks: seq<Token>, p: int, x: string, d: Value)
    requires WF(s) && IsPos(toks, p) && LoopSpec(s, env, toks, RootDepth(toks, p), p).Ok?
    requires x in s.elements
    ensures var loop := LoopSpec(s, env, toks, RootDepth(toks, p), p).value;
      var h := Fold(s, ObjectMode, Start(s, toks, p), loop.0);
      var vs := ValuesFor(loop.0, s.elements[x].slot);
      Eval(Get(s.elements[x].slot, d), h.slots, h.tag)
        == if forall i :: 0 <= i < |vs| ==> vs[i] == Null then d else FirstNonNull(vs)
  {
    var loop := LoopSpec(s, env, toks, RootDepth(toks, p), p).value;
    var h := Fold(s, ObjectMode, Start(s, toks, p), loop.0);
    var k := s.elements[x].slot;
    ObjectResult(s, env, toks, p);
    assert h.slots[k] == FirstNonNull(ValuesFor(loop.0, k));
    assert Eval(Get(k, d), h.slots, h.tag) == GetSlot(h.slots, k, d);
  }

  /** A slot that neither an element rule nor an attribute rule owns (one
      taken by a repeated name) is never written, so the projector reads
      the request's default from it. */
  lemma OrphanSlotRead(s: Schema, env: Env, toks: seq<Token>, p: int, k: nat, d: Value)
    requires WF(s) && IsPos(toks, p) && LoopSpec(s, env, toks, RootDepth(toks, p), p).Ok?
    requires k < s.argLength && !IsAttributeSlot(s, k)
    requires forall x :: x in s.elements ==> s.elements[x].slot != k
    ensures var loop := LoopSpec(s, env, toks, RootDepth(toks, p), p).value;
      var h := Fold(s, ObjectMode, Start(s, toks, p), loop.0);
      Eval(Get(k, d), h.slots, h.tag) == d
  {
    NonElementSlotsKept(s, env, toks, p, k);
  }

  // ---------------------------------------------------------------------
  // Array mode

  /** The dispatch steps, in order. */
  function Dispatches(steps: seq<Step>): (ds: seq<Step>)
    ensures |ds| <= |steps|
    ensures forall i :: 0 <= i < |ds| ==> ds[i].Dispatch? && ds[i] in steps
    decreases |steps|
  {
    if steps == [] then []
    else
      var init := steps[..|steps| - 1];
      var last := steps[|steps| - 1];
      var prev := Dispatches(init);
      assert forall i :: 0 <= i < |prev| ==> prev[i] in steps by {
        forall i | 0 <= i < |prev| ensures prev[i] in steps {
          var j :| 0 <= j < |init| && init[j] == prev[i];
          assert steps[j] == init[j];
        }
      }
      prev + (if last.Dispatch? then [last] else [])
  }

  /** The array items for dispatches `ds`: each is the projection of the
      start slots with only that child's value stored. */
  function Items(s: Schema, h: Handler, ds: seq<Step>): (items: seq<Value>)
    requires Within(s.projector, |h.slots|)
    requires forall i :: 0 <= i < |ds| ==> ds[i].Dispatch? && ds[i].slot < |h.slots|
    ensures |items| == |ds|
    ensures forall i :: 0 <= i < |ds| ==> items[i] == Eval(s.projector, h.slots[ds[i].slot := ds[i].value], h.tag)
    decreases |ds|
  {
    if ds == [] then []
    else
      var d := ds[|ds| - 1];
      Items(s, h, ds[..|ds| - 1]) + [Eval(s.projector, h.slots[d.slot := d.value], h.tag)]
  }

  /** Array mode: each routed child whose slot is empty adds one item (the
      projection with that child's value alone stored) and empties the slot
      again, so the slots, including the attribute slots, stay as they
      were. */
  lemma {:induction false} ArrayFold(s: Schema, h: Handler, steps: seq<Step>)
    requires StepsFit(steps, |h.slots|) && Within(s.projector, |h.slots|)
    requires forall i :: 0 <= i < |steps| && steps[i].Dispatch? ==> h.slots[steps[i].slot] == Null
    ensures var h' := Fold(s, ArrayMode, h, steps);
      && h'.slots == h.slots
      && h'.results == h.results + Items(s, h, Dispatches(steps))
    decreases |steps|
  {
    if steps != [] {
      var init := steps[..|steps| - 1];
      var last := steps[|steps| - 1];
      assert forall i :: 0 <= i < |init| ==> init[i] == steps[i];
      ArrayFold(s, h, init);
      var ds := Dispatches(steps);
      if last.Dispatch? {
        assert ds[..|ds| - 1] == Dispatches(init);
        assert h.slots[last.slot := last.value][last.slot := Null] == h.slots;
        assert h.results + Items(s, h, Dispatches(init)) + [Eval(s.projector, h.slots[last.slot := last.value], h.tag)]
            == h.results + Items(s, h, ds);
      } else {
        assert ds == Dispatches(init) + [];
        assert Dispatches(init) + [] == Dispatches(init);
      }
    }
  }

  /** An ArrayParser's value: one item per routed child, in document order,
      each the projection of the start slots (tag name and attributes) with
      that child's value alone stored in its rule's slot. */
  lemma ArrayResult(s: Schema, env: Env, toks: seq<Token>, p: int)
    requires WF(s) && IsPos(toks, p) && LoopSpec(s, env, toks, RootDepth(toks, p), p).Ok?
    ensures var loop := LoopSpec(s, env, toks, RootDepth(toks, p), p).value;
      var h := Start(s, toks, p);
      ParseSpec(s, ArrayMode, env, toks, p) == Ok((List(Items(s, h, Dispatches(loop.0))), loop.1))
  {
    var rd := RootDepth(toks, p);
    var loop := LoopSpec(s, env, toks, rd, p).value;
    var h := Start(s, toks, p);
    LoopTrace(s, env, toks, rd, p);
    forall i | 0 <= i < |loop.0| && loop.0[i].Dispatch?
      ensures h.slots[loop.0[i].slot] == Null
    {
      assert TraceStep(s, env, toks, rd, loop.0, i, loop.1);
      var x := RuleName(s, toks, rd, loop.0[i].pos);
      assert loop.0[i].slot == s.elements[x].slot;
      ElementSlotsStartEmpty(s, toks, p, x);
    }
    ArrayFold(s, h, loop.0);
    assert h.results == [];
    assert Fold(s, ArrayMode, h, loop.0).results == Items(s, h, Dispatches(loop.0));
  }
}

=== FILE: schema.dfy ===
/** The declarative field-request graph a schema author writes against the
    INode interface, and the compiled schema the traversal engine executes. */
module Schema {
  import opened Values
  import opened Tokens

  /** The leaf requests of INode, named after its methods. */
  datatype LeafKind = NullBool | Int | NullInt | NullDecimal | NullDate | String

  /** An externally supplied parser for one element (a Func<XmlReader, T>):
      it reads the token sequence at the element's position. */
  type Consumer = (seq<Token>, nat) -> Result<Value>

  /** The request graph: one node per call on the INode parameter, and
      `Combine` for everything else the author wrote around those calls (an
      object initializer, `??`, `+`, a constant), whose meaning is an opaque
      function of the argument values.  `dflt` is default(T) for the static
      type T the call returns. */
  datatype Request =
    | Tag
    | Attribute(name: string)
    | Leaf(kind: LeafKind, name: string)
    | Type(name: string, sub: Request, dflt: Value)
    | Array(name: string, sub: Request)
    | Custom(name: string, consume: Consumer, dflt: Value)
    | Unknown(methodName: string, name: string)
    | Combine(f: seq<Value> -> Value, args: seq<Request>)

  /** The rewritten graph: field requests become slot reads. */
  datatype Proj =
    | Get(slot: nat, dflt: Value)
    | TagName
    | Apply(f: seq<Value> -> Value, args: seq<Proj>)

  /** The parser attached to an element rule. */
  datatype Parser =
    | LeafParser(kind: LeafKind)
    | TypeParser(schema: Schema)
    | ArrayParser(schema: Schema)
    | CustomParser(consume: Consumer)

  datatype ElementRule = ElementRule(slot: nat, parser: Parser)

  /** A compiled schema: the slot count, the element rules by child name
      (`*` is the wildcard), the attribute rules by attribute name, and the
      projector. */
  datatype Schema = Schema(
    argLength: nat,
    elements: map<string, ElementRule>,
    attributes: map<string, nat>,
    projector: Proj)

  const Wildcard: string := "*"

  /** default(T) for the type a leaf request returns: 0 for `int`, null for
      the nullable types and for `string`. */
  function LeafDefault(kind: LeafKind): Value
  {
    if kind == Int then Number(0) else Null
  }

  /** Every slot the projection reads is below `n`. */
  predicate Within(p: Proj, n: nat)
  {
    match p
    case Get(k, _) => k < n
    case TagName => true
    case Apply(_, args) => forall i :: 0 <= i < |args| ==> Within(args[i], n)
  }

  /** ParserData.Get<T>: the stored value, or default(T) for an empty slot. */
  function GetSlot(slots: seq<Value>, k: nat, dflt: Value): (v: Value)
    requires k < |slots|
    ensures slots[k] == Null ==> v == dflt
    ensures slots[k] != Null ==> v == slots[k]
    ensures v == Null ==> dflt == Null
  {
    if slots[k] == Null then dflt else slots[k]
  }

  /** The projector: evaluates the rewritten graph over a slot array and the
      node's tag name. */
  function Eval(p: Proj, slots: seq<Value>, tag: Value): Value
    requires Within(p, |slots|)
    decreases p, 1
  {
    match p
    case Get(k, dflt) => GetSlot(slots, k, dflt)
    case TagName => tag
    case Apply(f, args) => f(EvalAll(args, slots, tag))
  }

  function EvalAll(args: seq<Proj>, slots: seq<Value>, tag: Value): (vs: seq<Value>)
    requires forall i :: 0 <= i < |args| ==> Within(args[i], |slots|)
    ensures |vs| == |args|
    decreases args, 0
  {
    seq(|args|, i requires 0 <= i < |args| => Eval(args[i], slots, tag))
  }

  /** The schema's slot indices are in range everywhere, nested schemas are
      well formed, and no two rules share a slot. */
  predicate WF(s: Schema)
    decreases s, 1
  {
    && Within(s.projector, s.argLength)
    && (forall x :: x in s.attributes ==> s.attributes[x] < s.argLength)
    && (forall x :: x in s.elements ==> s.elements[x].slot < s.argLength)
    && (forall x :: x in s.elements ==> ParserWF(s.elements[x].parser))
    && (forall x, y :: x in s.elements && y in s.attributes ==> s.elements[x].slot != s.attributes[y])
    && (forall x, y :: x in s.elements && y in s.elements && x != y ==> s.elements[x].slot != s.elements[y].slot)
    && (forall x, y :: x in s.attributes && y in s.attributes && x != y ==> s.attributes[x] != s.attributes[y])
  }

  predicate ParserWF(p: Parser)
    decreases p, 0
  {
    match p
    case TypeParser(s) => WF(s)
    case ArrayParser(s) => WF(s)
    case _ => true
  }
}

=== FILE: tokens.dfy ===
/** The forward-only markup cursor the parsers read from (the role of
    System.Xml.XmlReader).  The tokenizer itself (entity expansion, CDATA,
    comments, DTD handling, serialisation) is not modelled: a document is the
    token sequence it would produce, and the text of a text node and the
    serialised markup of an element are data carried on the tokens. */
module Tokens {
  import opened Values

  datatype Attr = Attr(name: string, value: string)

  /** One reader node. `depth` is the reader's nesting level: an end tag has
      the depth of its start tag, the content of an element one more.  An
      element written `<a/>` has `isEmpty` set and no end tag of its own.
      `outerXml` is what ReadOuterXml returns for the element; `Text` stands
      for every textual node (text, CDATA, whitespace). */
  datatype Token =
    | Element(depth: nat, name: string, attrs: seq<Attr>, isEmpty: bool, outerXml: string)
    | EndElement(depth: nat, name: string)
    | Text(depth: nat, value: string)
    | Other(depth: nat)

  /** A cursor position: -1 before the first Read, an index into the tokens,
      or |toks| once Read has returned false.  At -1 and at |toks| the
      reader's node type is None and its depth 0. */
  predicate IsPos(toks: seq<Token>, p: int)
  {
    -1 <= p <= |toks|
  }

  predicate AtNone(toks: seq<Token>, p: int)
  {
    p == -1 || p == |toks|
  }

  predicate ElementAt(toks: seq<Token>, p: int)
  {
    0 <= p < |toks| && toks[p].Element?
  }

  function DepthAt(toks: seq<Token>, p: int): nat
  {
    if 0 <= p < |toks| then toks[p].depth else 0
  }

  /** The position after XmlReader.Read: one step on, and stuck at the end. */
  function Next(toks: seq<Token>, p: int): int
    requires IsPos(toks, p)
  {
    if p < |toks| then p + 1 else p
  }

  /** The first position at or after `from` whose depth is at most `d`, or
      the end of input when there is none. */
  function SubtreeEnd(toks: seq<Token>, from: nat, d: nat): (e: nat)
    requires from <= |toks|
    ensures from <= e <= |toks|
    ensures e < |toks| ==> toks[e].depth <= d
    ensures forall k :: from <= k < e ==> toks[k].depth > d
    decreases |toks| - from
  {
    if from == |toks| || toks[from].depth <= d then from
    else SubtreeEnd(toks, from + 1, d)
  }

  /** Where an element's subtree closes: on its end tag, which is the first
      later token that is not deeper than the element, or on the element
      itself when it is written `<a/>`. */
  function ClosingPos(toks: seq<Token>, p: nat): (c: nat)
    requires ElementAt(toks, p)
    ensures p <= c <= |toks|
    ensures c == p || forall k :: p < k < c ==> toks[k].depth > toks[p].depth
  {
    if toks[p].isEmpty then p else SubtreeEnd(toks, p + 1, toks[p].depth)
  }

  /** The run of textual nodes starting at `q`: their concatenated text and
      the first position that is not a text node. */
  function TextRun(toks: seq<Token>, q: nat): (r: (string, nat))
    requires q <= |toks|
    ensures q <= r.1 <= |toks|
    ensures r.1 == |toks| || !toks[r.1].Text?
    ensures forall k :: q <= k < r.1 ==> toks[k].Text?
    decreases |toks| - q
  {
    if q < |toks| && toks[q].Text? then
      var rest := TextRun(toks, q + 1);
      (toks[q].value + rest.0, rest.1)
    else ("", q)
  }

  /** XmlReader.ReadString: on an element, the text directly inside it (the
      empty string for `<a/>` and `<a></a>`), stopping at the first node
      that is not text; elsewhere, the run of text nodes at the cursor.  It
      never yields null, and fails when a non-empty element is the last
      token. */
  function ReadStringSpec(toks: seq<Token>, p: int): (r: Result<(string, int)>)
    requires IsPos(toks, p)
    ensures r.Ok? ==> IsPos(toks, r.value.1) && p <= r.value.1
  {
    if AtNone(toks, p) then Ok(("", p))
    else if toks[p].Element? then
      if toks[p].isEmpty then Ok(("", p))
      else if p + 1 == |toks| then Err(InvalidOperation)
      else if toks[p + 1].EndElement? then Ok(("", p + 1))
      else Ok(TextRun(toks, p + 1))
    else Ok(TextRun(toks, p))
  }

  /** XmlReader.ReadOuterXml: on an element, its serialised markup, moving
      past its whole subtree; on any other node, nothing, moving one step. */
  function ReadOuterXmlSpec(toks: seq<Token>, p: nat): (r: (string, int))
    requires p < |toks|
    ensures p < r.1 <= |toks|
  {
    if toks[p].Element? then (toks[p].outerXml, Next(toks, ClosingPos(toks, p)))
    else ("", p + 1)
  }

  /** The reader: a fixed token sequence and a position that only moves
      forward. */
  class Reader {
    const tokens: seq<Token>
    var pos: int

    ghost predicate Valid()
      reads this
    {
      IsPos(tokens, pos)
    }

    constructor (toks: seq<Token>)
      ensures Valid() && tokens == toks && pos == -1
    {
      tokens := toks;
      pos := -1;
    }

    function Depth(): nat
      reads this
    {
      DepthAt(tokens, pos)
    }

    method Read() returns (more: bool)
      requires Valid()
      modifies this
      ensures Valid() && pos == Next(tokens, old(pos))
      ensures more <==> pos < |tokens|
    {
      if pos < |tokens| {
        pos := pos + 1;
      }
      more := pos < |tokens|;
    }

    method ReadString() returns (r: Result<string>)
      requires Valid()
      modifies this
      ensures Valid()
      ensures match ReadStringSpec(tokens, old(pos))
              case Ok(res) => r == Ok(res.0) && pos == res.1
              case Err(e) => r == Err(e)
    {
      if pos == -1 || pos == |tokens| {
        return Ok("");
      }
      var q: nat := pos;
      if tokens[q].Element? {
        if tokens[q].isEmpty {
          return Ok("");
        }
        if q + 1 == |tokens| {
          pos := q + 1;
          return Err(InvalidOperation);
        }
        q := q + 1;
        pos := q;
        if tokens[q].EndElement? {
          return Ok("");
        }
      }
      assert ReadStringSpec(tokens, old(pos)) == Ok(TextRun(tokens, q));
      var text := "";
      ghost var start := q;
      assert TextRun(tokens, start).0 == text + TextRun(tokens, q).0;
      while q < |tokens| && tokens[q].Text?
        invariant start <= q <= |tokens|
        invariant TextRun(tokens, start).0 == text + TextRun(tokens, q).0
        invariant TextRun(tokens, start).1 == TextRun(tokens, q).1
        decreases |tokens| - q
      {
        assert TextRun(tokens, q).0 == tokens[q].value + TextRun(tokens, q + 1).0;
        assert text + (tokens[q].value + TextRun(tokens, q + 1).0)
            == (text + tokens[q].value) + TextRun(tokens, q + 1).0;
        text := text + tokens[q].value;
        q := q + 1;
      }
      assert TextRun(tokens, q) == ("", q);
      assert text + "" == text;
      pos := q;
      r := Ok(text);
    }

    method ReadOuterXml() returns (markup: string)
      requires Valid() && 0 <= pos < |tokens|
      modifies this
      ensures Valid() && (markup, pos) == ReadOuterXmlSpec(tokens, old(pos))
    {
      if tokens[pos].Element? {
        markup := tokens[pos].outerXml;
        pos := Next(tokens, ClosingPos(tokens, pos));
      } else {
        markup := "";
        pos := pos + 1;
      }
    }
  }
}

=== FILE: values.dfy ===
/** Values that flow through slots, the failure kinds the parsers raise, and
    the small wrapper datatypes used to report them. */
module Values {

  /** A boxed slot value. `Null` is the empty slot (a C# null reference);
      `Number` is an `int` (the leaf parsers keep it in the 32-bit range),
      `Decimal` and `Date` hold what the culture-dependent converters return,
      `List` is the array an array-mode parser builds, and `Object` is whatever
      record a projector chooses to build. */
  datatype Value =
    | Null
    | Number(n: int)
    | Boolean(b: bool)
    | Decimal(d: real)
    | Date(ticks: int)
    | Str(s: string)
    | List(items: seq<Value>)
    | Object(fields: seq<Value>)

  /** The exceptions that abort a compilation or a parse. */
  datatype Error =
    | FormatError          // a leaf's text does not convert to its type
    | OverflowError        // an integer outside the 32-bit range
    | InvalidOperation     // the reader ran out of input inside an element
    | UnknownWrapper       // a node method the schema compiler does not know

  datatype Result<T> = Ok(value: T) | Err(error: Error)

  datatype Option<T> = None | Some(value: T)

  const MinInt32: int := -0x8000_0000
  const MaxInt32: int := 0x7FFF_FFFF
}
